=== FILE: README.md ===
# Task management backend: authorization and assignment, in Dafny

This project models the authorization and assignment layer of an Express and
Mongoose task-management API. There are three kinds of principal, each with
its own collection: Admin, Manager and RegularUser. Requests carry a bearer
JWT whose payload is `{ id, role }`.

The model covers four parts:

- **Identity and role gating.** The `protect` middleware resolves the token
  into a typed caller. `authorize(...roles)` admits only the listed roles.
  `login` searches the Admin, Manager and RegularUser collections in that
  order. `GET /api/auth/me` echoes the token's role. `createInitialAdmin` is
  the one-shot bootstrap.
- **Task visibility.** A regular user sees the tasks it created. A manager
  sees its own tasks and those created by the ids in its `assignedUsers`. An
  admin sees everything. This scope filters the list and the statistics, and
  the same test is repeated by get, update and delete. Optional status,
  due-day and search filters narrow the list, which is sorted by due date.
- **The assignment registry.** Two references must agree: a Manager's
  `assignedUsers` list and each RegularUser's `managerId`. Creating a user,
  reassigning it and deleting it update both sides in sequence.
- **Schema rules.** These are the Task and RegularUser schema constraints:
  required fields, trimming, lower-cased emails, the status enum and its
  default, the immutable role, and which models may create a regular user.

## How the model is built

- The database is a value, `Models.Store`, holding four maps keyed by document id.
- Each handler is a function or method from a store, a caller and a request.
  A handler that can fail returns a `Result`: either the new store or value,
  or an error that carries the handler's status code and message. The list
  and statistics handlers (`Tasks.ListTasks`, `Tasks.TaskStats`,
  `Users.ListRegularUsers`, `Users.ListManagers`) are modelled as total once
  `protect` admits the request, and return their value directly; the 500s
  `getAllTasks` can send are listed under "Left out".
- I/O and library calls are parameters:
  - a fresh ObjectId is `newId`. Task creation requires it to be unused among
    the tasks, and manager creation unused among the managers. Regular-user
    creation and the bootstrap admin require `Models.IsFresh`: the id is in
    no collection and no manager list, `managerId` or task creator names it;
  - `jwt.verify` is an oracle from token to claims;
  - bcrypt's hash is a `digest` string;
  - `bcrypt.compare` is an oracle `compare(plain, digest)`.
- Gaps are modelled as written, not corrected:
  - a missing task is reported (404) before the permission check (403);
  - deleting a manager leaves its users' `managerId` pointing at nothing;
  - an admin-supplied `managerId` is not validated;
  - reassignment is a pull, then a save, then an add-to-set.

### Behaviour of the code worth knowing

- **Due-day filter.** The range is `$gte` the day's 00:00:00.000 and `$lt`
  its 23:59:59.999, so a task due in the last millisecond of the day is not
  matched (`Policy.DueDayMatches`, `Policy.PlainDayMatches`).
- **Reassignment.** It is three separate writes: a pull from the old
  manager's list, a save of the user, an add-to-set on the new manager's
  list. Run one request at a time, the result is still linked
  (`Registry.AssignPreservesLinked`).
- **Deleting a manager.** Its users' `managerId` is left as it was, naming a
  manager that no longer exists (`Registry.DeletedManagerLeavesDanglingUsers`).
- **The link invariant.** `Registry.Linked` allows a `managerId` that names
  no manager. Only a `managerId` naming an existing manager must be listed
  by it.

## Model

| member | source | states |
|---|---|---|
| Models.ParseStatus | backend/models/Task.js:14-18 | only the three enum names are statuses, and a status read back from its name is itself |
| Models.ParseRole | backend/middleware/auth.js:23-29 | only `admin`, `manager` and `user` name a role; reading a role's name gives that role back |
| Models.Required | backend/models/Task.js:3-12 | a required trimmed path holds a value iff the field is present and not blank; the value is the trimmed field and is non-empty |
| Models.NormalizeEmailIdempotent | backend/models/RegularUser.js:9-15 | normalising a stored email again leaves it unchanged, so stored emails and email queries agree |
| Models.NewTask | backend/models/Task.js:3-40 | a task is valid iff title, description and due date are present and any status is in the enum; the status defaults to pending, the assignee starts unset, the creator is the one given; failures are 500s |
| Models.NewRegularUser | backend/models/RegularUser.js:3-37 | a user is valid iff name and email are present and the creator is an Admin or a Manager; it stores the trimmed name, role `user`, the normalised non-empty email, the given password digest, the given `managerId` and creator |
| Models.NewAdmin | backend/controllers/authController.js:109-114 | an admin is valid iff name and email are present; it stores the trimmed name, role `admin`, the normalised email and the given password digest |
| Models.NewManager | backend/controllers/userController.js:26-31 | a manager is valid iff name and email are present; it stores the trimmed name, starts with an empty list, records its creator, and gets the normalised email and the given digest |
| Models.SaveRegularUser | backend/models/RegularUser.js:20-24 | saving keeps the stored role whatever the edit says, and keeps every other field of the edit |
| Text.Trim | backend/models/RegularUser.js:9-15 | the trimmed string has no white space at either end, is no longer than the input, and is empty exactly when the input is all white space |
| Text.TrimIsInnerSlice | backend/models/RegularUser.js:9-15 | the trimmed string is the slice of the input left between a blank prefix and a blank suffix |
| Text.TrimIdempotent | backend/models/Task.js:3-7 | trimming a trimmed string changes nothing |
| Text.LowerIdempotent | backend/models/RegularUser.js:9-15 | lower-casing twice is lower-casing once |
| Text.OccursIffSomePosition | backend/controllers/taskController.js:66-74 | the recursive substring search finds a needle iff it occurs at some position |
| Text.Split | backend/middleware/auth.js:10-12 | splitting gives at least one field, no field contains the separator, and a string without the separator is its own single field |
| Text.JoinSplit | backend/middleware/auth.js:10-12 | joining the fields of a split with the separator gives back the original string |
| Auth.BearerToken | backend/middleware/auth.js:10-16 | only a header starting with `Bearer` yields a token; the token is exactly the second space-separated field of the header, and it is yielded whenever that field exists and is non-empty |
| Auth.BearerTokenRoundTrip | backend/middleware/auth.js:10-12 | the header `Bearer <token>` yields exactly that token |
| Auth.ModelFor | backend/middleware/auth.js:37 | a role's model is the collection of that role, and any other role name falls through to RegularUser |
| Auth.LoadPrincipal | backend/middleware/auth.js:21-29 | a principal is found iff the token's role is one of the three and that role's collection holds the token's id |
| Auth.Protect | backend/middleware/auth.js:7-43 | every failure is a 401: no token gives "Not authorized to access this route", a token that fails verification gives "Not authorized, token failed", verified claims naming no document give "User not found"; on success the caller has the token's id and role and is the current document of that role's collection; with verified claims it succeeds iff such a document exists |
| Auth.Authorize | backend/middleware/auth.js:46-54 | a request passes iff its role is listed; otherwise a 403 naming the role |
| Policy.InScope | backend/controllers/taskController.js:37-49 | the role scope: a user sees the tasks it created, a manager those it or an id on its `assignedUsers` created, an admin all; `Policy.CheckTask` and `Tasks.ListTasks` are both stated against it |
| Policy.StatusMatches | backend/controllers/taskController.js:51-54 | the status filter, when given, keeps the tasks whose status name equals it |
| Policy.DueDayMatches | backend/controllers/taskController.js:56-62 | the due-date filter keeps the tasks due at or after the day's start and strictly before its 23:59:59.999 |
| Policy.SearchMatches | backend/controllers/taskController.js:64-74 | the search filter keeps the tasks whose title or description contains the search text, ignoring case |
| Policy.Selected | backend/controllers/taskController.js:37-74 | the list query is the role scope and all three filters together |
| Policy.NoFilterIsScope | backend/controllers/taskController.js:37-74 | with no query parameters the list query selects exactly the role scope |
| Policy.PlainDayMatches | backend/controllers/taskController.js:56-62 | on a 24-hour day the due-date filter matches from the day's first millisecond up to but not including its last |
| Auth.GetMe | backend/controllers/authController.js:75-90 | the request succeeds exactly when `protect` admits it, and otherwise fails with `protect`'s 401; the profile reports the id and role the verified token carried, never a stored role field |
| Policy.CheckTask | backend/controllers/taskController.js:101-112 | the single-task check passes iff the task is in the caller's list scope; an admin always passes; a failure is the handler's 403 |
| Tasks.CreateTask | backend/controllers/taskController.js:7-27 | a task is created iff the schema accepts it; it stores the trimmed title and description and the given due date; its creator is the caller's id and model; an absent or empty status becomes pending, a given one is stored; nothing but the new task is added |
| Tasks.InsertByDue | backend/controllers/taskController.js:76-78 | inserting keeps the list sorted by due date, adds exactly the one id and keeps ids distinct |
| Tasks.ListTasks | backend/controllers/taskController.js:32-88 | the list holds exactly the tasks the role scope and the status, due-day and search filters select, each once, in ascending due-date order |
| Tasks.GetTask | backend/controllers/taskController.js:93-121 | a missing id is a 404 before any check; a non-admin reading a task whose creator is gone gets a 500; an out-of-scope task whose creator resolves gets the 403 "Not authorized to view this task"; otherwise the task is returned iff it is in the caller's scope |
| Tasks.ApplyPatch | backend/controllers/taskController.js:147-153 | an update succeeds iff every supplied field passes its schema rule; absent fields are unchanged; creator and assignee are never changed |
| Tasks.UpdateTask | backend/controllers/taskController.js:126-162 | 404 first, then the 403 for an out-of-scope task, then validation; a permitted update stores exactly the patched task, so only title, description, status and due date change, and no other task changes |
| Tasks.DeleteTask | backend/controllers/taskController.js:167-197 | 404 first; a present task is deleted iff it is in the caller's scope; only that task is removed |
| Tasks.StatusGroupsPartitionScope | backend/controllers/taskController.js:216-224 | the three status groups of the caller's scope add up to the whole scope |
| Tasks.TaskStats | backend/controllers/taskController.js:202-243 | the statistics always have exactly the three status keys, each counting the scoped tasks with that status |
| Tasks.StatsTotalIsListCount | backend/controllers/taskController.js:204-214 | the statistics count as many tasks as the unfiltered list returns |
| Registry.Pull | backend/controllers/userController.js:166-171 | `$pull` removes every occurrence of the id and keeps every other id and distinctness |
| Registry.AddToSet | backend/controllers/userController.js:177-181 | `$addToSet` adds the id only when it is absent and keeps distinctness |
| Registry.PullAssigned | backend/controllers/userController.js:165-171 | `$pull` on one manager's list: that manager keeps every other field, its list loses the id, nothing else changes, and an unknown manager id changes nothing |
| Registry.AddAssigned | backend/controllers/userController.js:177-181 | `$addToSet` on one manager's list: that manager keeps every other field, its list gains the id once, nothing else changes, and an unknown manager id changes nothing |
| Registry.PushAssigned | backend/controllers/userController.js:86-89 | `$push` on one manager's list: that manager keeps every other field, the id is appended, nothing else changes, and an unknown manager id changes nothing |
| Registry.Linked | backend/controllers/userController.js:82-90 | the link the handlers keep: every listed id is a user naming that manager, every user naming an existing manager is on its list, and no list repeats an id |
| Registry.Enrol | backend/controllers/userController.js:82-90 | the new user is inserted and its id is appended to the list of the manager its `managerId` names, if that manager exists; that manager's other fields, every other manager, the admins and the tasks are unchanged |
| Registry.EnrolPreservesLinked | backend/controllers/userController.js:82-90 | enrolling a fresh user keeps the manager lists and the users' `managerId` in agreement |
| Registry.LinkedListsAreDisjoint | backend/controllers/userController.js:151-191 | in a linked store no user is on two managers' lists |
| Registry.Assign | backend/controllers/userController.js:151-191 | a missing user, then a missing manager, is a 404; otherwise only the user's `managerId` changes, to the new manager; the user is added once to the new list, which otherwise keeps its ids; the old manager's document changes only by the user being pulled from its list; every other document is unchanged |
| Registry.AssignPreservesLinked | backend/controllers/userController.js:165-181 | the pull, save and add-to-set sequence keeps a linked store linked |
| Registry.ReAddIsStable | backend/controllers/userController.js:165-181 | a list that ends with the id, once, is restored by pulling the id and adding it back |
| Registry.AssignInPlace | backend/controllers/userController.js:165-181 | assigning a user to the manager it already has changes nothing when pulling and re-adding it leaves that list as it was |
| Registry.AssignIdempotent | backend/controllers/userController.js:151-191 | repeating the same reassignment changes nothing further |
| Registry.DeleteUser | backend/controllers/userController.js:196-228 | a manager id is deleted as a manager first and nothing else changes; otherwise a user is deleted and its manager keeps every field except that the id is pulled from its list; otherwise a 404; admins and tasks are untouched |
| Registry.DeleteUserPreservesLinked | backend/controllers/userController.js:196-228 | every successful delete keeps a linked store linked |
| Registry.DeletedManagerLeavesDanglingUsers | backend/controllers/userController.js:200-203 | deleting a manager keeps its users, and their `managerId` still names the deleted manager |
| Users.CreateManager | backend/controllers/userController.js:9-45 | an email in use in any collection is refused with a 400; a missing password is the hashing 500; otherwise it succeeds iff the manager document is valid, and exactly one manager is added, with an empty list, created by the caller, holding the digest |
| Users.InitialManager | backend/controllers/userController.js:75-80 | a manager caller always assigns the new user to itself; any other caller passes the body's `managerId` through |
| Users.EmailMatches | backend/controllers/userController.js:14-16 | an email query matches a stored email iff its normalised form equals it; an absent email matches every document |
| Users.EmailTaken | backend/controllers/userController.js:14-16 | the duplicate check holds iff some Manager, Admin or RegularUser document matches the email query |
| Users.CreateRegularUser | backend/controllers/userController.js:50-105 | an email in use is refused with a 400; a missing password is the hashing 500; otherwise one user is added with the caller as creator, the chosen manager and the password digest, and that manager's document changes only by the new id appended to its list |
| Users.CreateManagerPreservesLinked | backend/controllers/userController.js:26-31 | creating a manager keeps the store linked |
| Users.CreateRegularUserPreservesLinked | backend/controllers/userController.js:82-90 | creating a regular user keeps the store linked, whichever manager it names |
| Users.ListRegularUsers | backend/controllers/userController.js:127-146 | a manager lists exactly the users whose `managerId` is its id, any other role lists all users, and no listed user carries a password |
| Users.ListManagers | backend/controllers/userController.js:110-122 | every manager is listed, identical to its stored document except that the password is blanked |
| Users.ManagerListMatchesAssigned | backend/controllers/userController.js:132-134 | in a linked store, the users a manager lists are exactly the ids on its own `assignedUsers` |
| Login.FindOneByEmail | backend/controllers/authController.js:26 | the lookup finds a document holding the email, or nothing exactly when no document holds it |
| Login.Login | backend/controllers/authController.js:17-70 | a missing email or password is a 400; an unknown email and a wrong password are the same 401; the first collection holding the email decides the role, and a password every holder in that collection accepts logs in with that role; the token carries the found id and that role |
| Login.CreateInitialAdmin | backend/controllers/authController.js:95-131 | given a fresh id, refused with a 400 once any admin exists; with no admin, a missing password is the hashing 500, and with a password it succeeds iff the admin document is valid; its token and profile name the new id as admin |
| Login.CreateInitialAdminCreatesOneAdmin | backend/controllers/authController.js:99-114 | a successful bootstrap leaves exactly one admin, with role `admin` and the hashed password, and no other collection changes |
| Login.CreateInitialAdminOneShot | backend/controllers/authController.js:99-103 | after the bootstrap succeeds, calling it again is refused |
| Routes.GateMatchesTable | backend/routes/userRoutes.js:14-23 | the roles written at each route are exactly the roles of the capability table |
| Routes.Gate | backend/routes/userRoutes.js:14-23 | the roles each route passes to `authorize`, or none when the route runs `protect` alone |
| Routes.Admit | backend/routes/userRoutes.js:14-23 | an authentication failure is reported unchanged before any role check; a request passes iff it authenticates and its role is permitted on the route, and the handler then sees the resolved caller |
| Routes.UserCannotManage | backend/routes/userRoutes.js:14-23 | a regular user is refused with a 403 on creating managers or users, reassigning and deleting |
| Visibility.ReassignmentMovesVisibility | backend/controllers/userController.js:165-181 | after a user is reassigned, the tasks it created are in the new manager's scope and in no other manager's scope |

## Left out

- Password hashing and JWT signing and verification are not modelled. They are oracles: bcrypt's digest is a parameter, `compare` is a parameter, and `jwt.verify` is a function from a token to its claims. Token expiry belongs to that oracle.
- ObjectId generation is left out. It is a `newId` parameter: `Tasks.CreateTask` requires it unused among the tasks, `Users.CreateManager` unused among the managers, and `Users.CreateRegularUser` and `Login.CreateInitialAdmin` require `Models.IsFresh`. ObjectId casting of malformed ids is not modelled.
- Concurrency is left out. Each handler runs alone, so interleavings of the three reassignment writes are not modelled.
- The Admin and Manager schemas are not part of this model. Their name and email are taken to be required, and their email to be trimmed and lower-cased like a regular user's.
- `populate`, `select` and the response bodies are not modelled. The only exception is the effect of `populate` in `getTask` (a 500 for a missing creator). The principal `protect` loads keeps its password digest, while the source selects it away.
- The `$group`/`$match` pipeline of `getTaskStats` is left out. It is modelled by its result.
- Dates are integers in milliseconds. `setHours` works in the server's local time zone, which the model does not have, so the due-day filter takes the day's start and its 23:59:59.999 as given (`Policy.DayWindow`). On a day when daylight-saving time starts or ends they are 23 or 25 hours apart, less 1 ms; `Policy.PlainDay` builds only the 24-hour window.
- The 500 that `getAllTasks` sends when the search text is not a valid regular expression, or when `dueDate` does not parse as a date, is not modelled: `Tasks.ListTasks` is total.
- The search filter is modelled as a case-insensitive substring test. Regular-expression metacharacters in the search text are not interpreted, and case folding and blank trimming are ASCII only.
- The 500 messages of schema and hashing failures are approximations. Only their status code is stated.
- Log output (`console.log` of passwords during login) is left out.
- The bootstrap scripts `backend/createAdmin.js`, `backend/api/createInitialAdmin.js` and `backend/test-create-admin.js` are not part of this model.
- Unique indexes on email are left out. Duplicate emails are possible in the model, and `Login.FindOneByEmail` may then pick any of them.
- Tasks whose creator was deleted are kept. No handler removes them.
- Registry.Linked: weaker than a two-way link. A `managerId` may name a manager that no longer exists, because deleting a manager and an admin-supplied `managerId` both allow it.
- Login.Login: when several documents hold the email, only the case where every one accepts the password is stated to succeed.

=== FILE: auth.dfy ===
/** Identity resolution and role gating (backend/middleware/auth.js): the
    `protect` middleware turns an Authorization header into a typed caller,
    `authorize(...roles)` admits only the listed roles. JWT verification is
    an oracle passed in as a function from a token to its claims. */
module Auth {
  import opened Outcomes
  import opened Models
  import Text

  /** The payload a signed token carries: `{ id, role }`. */
  datatype Claims = Claims(id: Id, role: string)

  /** `req.user`: the document loaded from the collection the role names. */
  datatype Principal = AdminP(admin: Admin) | ManagerP(manager: Manager) | UserP(user: RegularUser)
  {
    function Name(): string {
      match this
      case AdminP(a) => a.name
      case ManagerP(m) => m.name
      case UserP(u) => u.name
    }

    function Email(): string {
      match this
      case AdminP(a) => a.email
      case ManagerP(m) => m.email
      case UserP(u) => u.email
    }
  }

  /** What `protect` leaves on the request: `req.user` with its id,
      `req.userRole` and `req.userModel`. */
  datatype Caller = Caller(id: Id, principal: Principal, role: Role, model: Kind)
  {
    /** `req.user.assignedUsers || []`: only a Manager document has the list. */
    function AssignedUsers(): seq<Id> {
      if principal.ManagerP? then principal.manager.assignedUsers else []
    }
  }

  /** The collection a role's principals live in. */
  function KindOf(r: Role): Kind {
    match r
    case AdminRole => AdminModel
    case ManagerRole => ManagerModel
    case UserRole => RegularUserModel
  }

  /** The caller is the current document of its role's collection, with the
      model that collection is named by. */
  predicate IsCurrent(s: Store, c: Caller) {
    && c.model == KindOf(c.role)
    && match c.role
       case AdminRole => c.id in s.admins && c.principal == AdminP(s.admins[c.id])
       case ManagerRole => c.id in s.managers && c.principal == ManagerP(s.managers[c.id])
       case UserRole => c.id in s.users && c.principal == UserP(s.users[c.id])
  }

  /** The token of an Authorization header: only a header starting with
      `Bearer` has one, and it is the second space-separated field, which
      must be non-empty. */
  function BearerToken(authorization: Option<string>): (r: Option<string>)
    ensures authorization.None? ==> r.None?
    ensures authorization.Some? && !("Bearer" <= authorization.value) ==> r.None?
    ensures authorization.Some? && ' ' !in authorization.value ==> r.None?
    ensures r.Some? ==> r.value != [] && ' ' !in r.value
    ensures r.Some? ==>
      && authorization.Some?
      && |Text.Split(authorization.value, ' ')| > 1
      && r.value == Text.Split(authorization.value, ' ')[1]
    ensures
      && authorization.Some? && "Bearer" <= authorization.value
      && |Text.Split(authorization.value, ' ')| > 1 && Text.Split(authorization.value, ' ')[1] != ""
      ==> r == Some(Text.Split(authorization.value, ' ')[1])
  {
    if authorization.Some? && "Bearer" <= authorization.value then
      var fields := Text.Split(authorization.value, ' ');
      if |fields| > 1 && fields[1] != "" then Some(fields[1]) else None
    else
      None
  }

  /** The header a client sends, `Bearer <token>`, gives back exactly its token. */
  lemma BearerTokenRoundTrip(token: string)
    requires token != [] && ' ' !in token
    ensures BearerToken(Some("Bearer " + token)) == Some(token)
  {
    assert "Bearer " + token == "Bearer" + [' '] + token;
    Text.SplitAfterHead("Bearer", ' ', token);
    assert Text.Split(token, ' ') == [token];
  }

  /** `req.userModel`: derived from the raw role name, and any name other
      than `'admin'` or `'manager'` falls through to `'RegularUser'`. */
  function ModelFor(roleName: string): (k: Kind)
    ensures ParseRole(roleName).Some? ==> k == KindOf(ParseRole(roleName).value)
    ensures roleName != "admin" && roleName != "manager" ==> k == RegularUserModel
  {
    if roleName == "admin" then AdminModel
    else if roleName == "manager" then ManagerModel
    else RegularUserModel
  }

  /** The role-dispatched `findById`: the collection is chosen by the role
      named in the token, and an unknown role finds nothing. */
  function LoadPrincipal(s: Store, claims: Claims): (r: Option<Principal>)
    ensures r.Some? <==> (ParseRole(claims.role).Some? &&
      match ParseRole(claims.role).value
      case AdminRole => claims.id in s.admins
      case ManagerRole => claims.id in s.managers
      case UserRole => claims.id in s.users)
  {
    if claims.role == "admin" then
      if claims.id in s.admins then Some(AdminP(s.admins[claims.id])) else None
    else if claims.role == "manager" then
      if claims.id in s.managers then Some(ManagerP(s.managers[claims.id])) else None
    else if claims.role == "user" then
      if claims.id in s.users then Some(UserP(s.users[claims.id])) else None
    else
      None
  }

  /** The `protect` middleware. Every failure is a 401: no token, a token
      that fails verification, or a token whose role and id name no
      document. On success the caller carries the token's id and role and
      the document found in that role's collection. */
  function Protect(s: Store, authorization: Option<string>, verify: string -> Option<Claims>): (r: Result<Caller>)
    ensures r.Err? ==> r.error.Code() == 401
    ensures BearerToken(authorization).None? ==>
      r == Err(Unauthorized("Not authorized to access this route"))
    ensures BearerToken(authorization).Some? && verify(BearerToken(authorization).value).None? ==>
      r == Err(Unauthorized("Not authorized, token failed"))
    ensures
      && BearerToken(authorization).Some? && verify(BearerToken(authorization).value).Some?
      && LoadPrincipal(s, verify(BearerToken(authorization).value).value).None?
      ==> r == Err(Unauthorized("User not found"))
    ensures r.Ok? ==>
      && BearerToken(authorization).Some?
      && verify(BearerToken(authorization).value) == Some(Claims(r.value.id, RoleName(r.value.role)))
      && IsCurrent(s, r.value)
    ensures BearerToken(authorization).Some? && verify(BearerToken(authorization).value).Some? ==>
      var claims := verify(BearerToken(authorization).value).value;
      (r.Ok? <==> exists c :: IsCurrent(s, c) && c.id == claims.id && RoleName(c.role) == claims.role)
  {
    var token := BearerToken(authorization);
    if token.None? then
      Err(Unauthorized("Not authorized to access this route"))
    else
      match verify(token.value)
      case None => Err(Unauthorized("Not authorized, token failed"))
      case Some(claims) =>
        match LoadPrincipal(s, claims)
        case None =>
          Err(Unauthorized("User not found"))
        case Some(p) =>
          var role := ParseRole(claims.role).value;
          var c := Caller(claims.id, p, role, ModelFor(claims.role));
          assert IsCurrent(s, c);
          Ok(c)
  }

  /** The `authorize(...roles)` middleware: the request passes iff the
      caller's role is listed; otherwise a 403 naming the role. */
  function Authorize(roles: seq<Role>, role: Role): (r: Outcome)
    ensures r.Pass? <==> role in roles
    ensures r.Fail? ==> r.error.Code() == 403
    ensures r.Fail? ==> r.error == Forbidden("User role '" + RoleName(role) + "' is not authorized to access this route")
  {
    if role in roles then Pass
    else Fail(Forbidden("User role '" + RoleName(role) + "' is not authorized to access this route"))
  }

  /** The body of `GET /api/auth/me`. */
  datatype Profile = Profile(id: Id, name: string, email: string, role: Role)

  /** `GET /api/auth/me` (`protect` then `getMe`): the reported role is the
      one the token carried, never a role field stored in the document. */
  function GetMe(s: Store, authorization: Option<string>, verify: string -> Option<Claims>): (r: Result<Profile>)
    ensures r.Ok? <==> Protect(s, authorization, verify).Ok?
    ensures r.Err? ==> r.error == Protect(s, authorization, verify).error
    ensures r.Ok? ==>
      && BearerToken(authorization).Some?
      && verify(BearerToken(authorization).value) == Some(Claims(r.value.id, RoleName(r.value.role)))
    ensures r.Ok? && r.value.role == UserRole ==>
      r.value.id in s.users && r.value.email == s.users[r.value.id].email
  {
    match Protect(s, authorization, verify)
    case Err(e) => Err(e)
    case Ok(c) => Ok(Profile(c.id, c.principal.Name(), c.principal.Email(), c.role))
  }
}

=== FILE: login.dfy ===
/** The public authentication handlers of backend/controllers/authController.js:
    `login`, which looks an email up in the Admin, Manager and RegularUser
    collections in that order, and the one-shot `createInitialAdmin`. Password
    checking is an oracle `compare(plain, digest)`; a token is modelled by the
    claims it is signed over. */
module Login {
  import opened Outcomes
  import opened Models
  import opened Auth

  /** A signed-in session: the token's claims and the user summary. */
  datatype Session = Session(token: Claims, profile: Profile)

  const MissingCredentials := BadRequest("Please provide email and password")

  /** The one failure for an unknown email and for a wrong password alike. */
  const InvalidCredentials := Unauthorized("Invalid credentials")

  /** `Model.findOne({ email })` over one collection: some document holding
      the email, or none when no document holds it. Which one is found when
      several hold it is left open, as the database leaves it. */
  method FindOneByEmail<T>(docs: map<Id, T>, emailOf: T -> string, email: string) returns (r: Option<Id>)
    ensures r.Some? ==> r.value in docs && emailOf(docs[r.value]) == email
    ensures r.None? ==> forall id :: id in docs ==> emailOf(docs[id]) != email
  {
    var unseen := docs.Keys;
    while unseen != {}
      invariant unseen <= docs.Keys
      invariant forall id :: id in docs && id !in unseen ==> emailOf(docs[id]) != email
      decreases |unseen|
    {
      var id :| id in unseen;
      if emailOf(docs[id]) == email {
        return Some(id);
      }
      unseen := unseen - {id};
    }
    return None;
  }

  predicate AdminHas(s: Store, email: string) {
    exists id :: id in s.admins && s.admins[id].email == email
  }

  predicate ManagerHas(s: Store, email: string) {
    exists id :: id in s.managers && s.managers[id].email == email
  }

  predicate UserHas(s: Store, email: string) {
    exists id :: id in s.users && s.users[id].email == email
  }

  /** The principal a session names holds the email in the collection of the
      session's role, its password digest matches, and no collection searched
      earlier holds the email. */
  predicate SignedInAs(s: Store, email: string, password: string, compare: (string, string) -> bool, p: Profile) {
    match p.role
    case AdminRole =>
      p.id in s.admins && s.admins[p.id].email == email && compare(password, s.admins[p.id].password)
      && p.name == s.admins[p.id].name && p.email == email
    case ManagerRole =>
      !AdminHas(s, email)
      && p.id in s.managers && s.managers[p.id].email == email && compare(password, s.managers[p.id].password)
      && p.name == s.managers[p.id].name && p.email == email
    case UserRole =>
      !AdminHas(s, email) && !ManagerHas(s, email)
      && p.id in s.users && s.users[p.id].email == email && compare(password, s.users[p.id].password)
      && p.name == s.users[p.id].name && p.email == email
  }

  /** `login`. Missing email or password is a 400 before any lookup. The
      first collection holding the email decides the role; an unknown email
      and a wrong password give the same 401. The token carries the found
      principal's id and the role of its collection. */
  method Login(s: Store, email: Option<string>, password: Option<string>, compare: (string, string) -> bool)
    returns (r: Result<Session>)
    ensures !Given(email) || !Given(password) ==> r == Err(MissingCredentials)
    ensures Given(email) && Given(password) && r.Err? ==> r.error == InvalidCredentials
    ensures Given(email) && Given(password) ==>
      var key := NormalizeEmail(email.value);
      !AdminHas(s, key) && !ManagerHas(s, key) && !UserHas(s, key) ==> r == Err(InvalidCredentials)
    ensures r.Ok? ==>
      && Given(email) && Given(password)
      && r.value.token == Claims(r.value.profile.id, RoleName(r.value.profile.role))
      && SignedInAs(s, NormalizeEmail(email.value), password.value, compare, r.value.profile)
    ensures Given(email) && Given(password) ==>
      var key := NormalizeEmail(email.value);
      AdminHas(s, key) && (forall id :: id in s.admins && s.admins[id].email == key ==> compare(password.value, s.admins[id].password))
      ==> r.Ok? && r.value.profile.role == AdminRole
    ensures Given(email) && Given(password) ==>
      var key := NormalizeEmail(email.value);
      !AdminHas(s, key) && ManagerHas(s, key)
      && (forall id :: id in s.managers && s.managers[id].email == key ==> compare(password.value, s.managers[id].password))
      ==> r.Ok? && r.value.profile.role == ManagerRole
    ensures Given(email) && Given(password) ==>
      var key := NormalizeEmail(email.value);
      !AdminHas(s, key) && !ManagerHas(s, key) && UserHas(s, key)
      && (forall id :: id in s.users && s.users[id].email == key ==> compare(password.value, s.users[id].password))
      ==> r.Ok? && r.value.profile.role == UserRole
  {
    if !Given(email) || !Given(password) {
      return Err(MissingCredentials);
    }
    var key := NormalizeEmail(email.value);
    var plain := password.value;
    var found := FindOneByEmail(s.admins, (a: Admin) => a.email, key);
    if found.Some? {
      var a := s.admins[found.value];
      if !compare(plain, a.password) {
        return Err(InvalidCredentials);
      }
      return Ok(Session(Claims(found.value, "admin"), Profile(found.value, a.name, a.email, AdminRole)));
    }
    found := FindOneByEmail(s.managers, (m: Manager) => m.email, key);
    if found.Some? {
      var m := s.managers[found.value];
      if !compare(plain, m.password) {
        return Err(InvalidCredentials);
      }
      return Ok(Session(Claims(found.value, "manager"), Profile(found.value, m.name, m.email, ManagerRole)));
    }
    found := FindOneByEmail(s.users, (u: RegularUser) => u.email, key);
    if found.Some? {
      var u := s.users[found.value];
      if !compare(plain, u.password) {
        return Err(InvalidCredentials);
      }
      return Ok(Session(Claims(found.value, "user"), Profile(found.value, u.name, u.email, UserRole)));
    }
    return Err(InvalidCredentials);
  }

  /** `Admin.findOne()` with no filter finds a document. */
  predicate HasAdmin(s: Store) {
    exists id :: id in s.admins
  }

  const AdminExists := BadRequest("Admin already exists. This route is disabled.")

  /** The store after the bootstrap: `admin` is the only Admin, under
      `newId`, and no other collection changes. */
  function WithFirstAdmin(s: Store, newId: Id, admin: Admin): (r: Store)
    ensures r.managers == s.managers && r.users == s.users && r.tasks == s.tasks
    ensures newId in r.admins && r.admins[newId] == admin
    ensures forall id :: id in r.admins ==> id == newId
  {
    s.(admins := map[newId := admin])
  }

  /** `createInitialAdmin`. Refused once any Admin exists; otherwise exactly
      one Admin is created with role `'admin'`, and its session is returned.
      The email is not checked against the other collections. */
  function CreateInitialAdmin(
    s: Store,
    name: Option<string>,
    email: Option<string>,
    password: Option<string>,
    digest: string,
    newId: Id): (r: Result<(Store, Session)>)
    requires IsFresh(s, newId)
    ensures HasAdmin(s) ==> r == Err(AdminExists)
    ensures !HasAdmin(s) && password.None? ==> r == Err(HashFailed)
    ensures !HasAdmin(s) && password.Some? ==> (r.Ok? <==> NewAdmin(name, email, digest).Ok?)
    ensures r.Ok? ==>
      && !HasAdmin(s)
      && r.value.1.token == Claims(newId, "admin")
      && r.value.1.profile.id == newId && r.value.1.profile.role == AdminRole
  {
    if HasAdmin(s) then Err(AdminExists)
    else if password.None? then Err(HashFailed)
    else
      var made := NewAdmin(name, email, digest);
      if made.Err? then Err(made.error)
      else
        var admin := made.value;
        Ok((WithFirstAdmin(s, newId, admin), Session(Claims(newId, "admin"), Profile(newId, admin.name, admin.email, AdminRole))))
  }

  /** A successful bootstrap adds exactly one document, an Admin with role
      `'admin'` and the hashed password, and touches no other collection. */
  lemma CreateInitialAdminCreatesOneAdmin(
    s: Store, name: Option<string>, email: Option<string>, password: Option<string>, digest: string, newId: Id)
    requires IsFresh(s, newId)
    requires CreateInitialAdmin(s, name, email, password, digest, newId).Ok?
    ensures var s' := CreateInitialAdmin(s, name, email, password, digest, newId).value.0;
      && s'.managers == s.managers && s'.users == s.users && s'.tasks == s.tasks
      && newId in s'.admins
      && (forall id :: id in s'.admins ==> id == newId)
      && s'.admins[newId].role == "admin"
      && s'.admins[newId].password == digest
  {
    assert !HasAdmin(s) && password.Some?;
    var made := NewAdmin(name, email, digest);
    assert CreateInitialAdmin(s, name, email, password, digest, newId).value.0 == WithFirstAdmin(s, newId, made.value);
  }

  /** The bootstrap route works once: after it succeeds it is refused. */
  lemma CreateInitialAdminOneShot(
    s: Store, name: Option<string>, email: Option<string>, password: Option<string>, digest: string, newId: Id,
    name2: Option<string>, email2: Option<string>, password2: Option<string>, digest2: string, newId2: Id)
    requires IsFresh(s, newId)
    requires CreateInitialAdmin(s, name, email, password, digest, newId).Ok?
    requires IsFresh(CreateInitialAdmin(s, name, email, password, digest, newId).value.0, newId2)
    ensures CreateInitialAdmin(CreateInitialAdmin(s, name, email, password, digest, newId).value.0,
      name2, email2, password2, digest2, newId2) == Err(AdminExists)
  {
    var s' := CreateInitialAdmin(s, name, email, password, digest, newId).value.0;
    assert newId in s'.admins;
  }
}

=== FILE: models.dfy ===
/** The documents of the three principal collections and the task collection,
    the store that holds them, and the schema rules the models enforce when a
    document is created or saved (backend/models/Task.js,
    backend/models/RegularUser.js). */
module Models {
  import opened Outcomes
  import Text

  /** A document id (a MongoDB ObjectId); ids are never reused. */
  type Id = nat

  /** The collection a polymorphic reference points into; the names are the
      model names stored in `creatorModel`, `assignedToModel`, `createdByModel`. */
  datatype Kind = AdminModel | ManagerModel | RegularUserModel

  function ModelName(k: Kind): string {
    match k
    case AdminModel => "Admin"
    case ManagerModel => "Manager"
    case RegularUserModel => "RegularUser"
  }

  /** The closed set of roles a token can carry. */
  datatype Role = AdminRole | ManagerRole | UserRole

  function RoleName(r: Role): string {
    match r
    case AdminRole => "admin"
    case ManagerRole => "manager"
    case UserRole => "user"
  }

  /** Reads a role name; only the three role names are roles. */
  function ParseRole(name: string): (r: Option<Role>)
    ensures r.Some? ==> RoleName(r.value) == name
    ensures forall x :: RoleName(x) == name ==> r == Some(x)
  {
    if name == "admin" then Some(AdminRole)
    else if name == "manager" then Some(ManagerRole)
    else if name == "user" then Some(UserRole)
    else None
  }

  /** The `status` enum of a task. */
  datatype Status = Pending | InProgress | Completed

  function StatusName(s: Status): string {
    match s
    case Pending => "pending"
    case InProgress => "in-progress"
    case Completed => "completed"
  }

  /** The enum validator: only the three status names are accepted. */
  function ParseStatus(name: string): (r: Option<Status>)
    ensures r.Some? ==> StatusName(r.value) == name
    ensures forall x :: StatusName(x) == name ==> r == Some(x)
  {
    if name == "pending" then Some(Pending)
    else if name == "in-progress" then Some(InProgress)
    else if name == "completed" then Some(Completed)
    else None
  }

  /** A polymorphic reference: an id together with the model it refers to. */
  datatype Ref = Ref(kind: Kind, id: Id)

  /** A task document. Every field but the assignee is required; the creator
      is set once at creation. `dueDate` is a time in milliseconds. */
  datatype Task = Task(
    title: string,
    description: string,
    status: Status,
    dueDate: int,
    creator: Ref,
    assignee: Option<Ref>)

  /** An Admin document; `role` is stored as `'admin'` at creation. */
  datatype Admin = Admin(name: string, email: string, password: string, role: string)

  /** No id occurs twice. */
  predicate Distinct(ids: seq<Id>) {
    forall i, j :: 0 <= i < j < |ids| ==> ids[i] != ids[j]
  }

  /** A Manager document with the ids of the regular users assigned to it. */
  datatype Manager = Manager(
    name: string,
    email: string,
    password: string,
    assignedUsers: seq<Id>,
    createdBy: Id)

  /** A RegularUser document. `managerId` is a weak reference to a Manager;
      `createdBy` refers to the Admin or Manager that created the user. */
  datatype RegularUser = RegularUser(
    name: string,
    email: string,
    password: string,
    role: string,
    managerId: Option<Id>,
    createdBy: Ref)

  /** The database: one map per collection, keyed by document id. */
  datatype Store = Store(
    admins: map<Id, Admin>,
    managers: map<Id, Manager>,
    users: map<Id, RegularUser>,
    tasks: map<Id, Task>)

  /** An id the database can hand out: no document has it and no stored
      reference mentions it (ObjectIds are unique and never reused). */
  predicate IsFresh(s: Store, id: Id) {
    && id !in s.admins && id !in s.managers && id !in s.users && id !in s.tasks
    && (forall m :: m in s.managers ==> id !in s.managers[m].assignedUsers)
    && (forall u :: u in s.users ==> s.users[u].managerId != Some(id))
    && (forall t :: t in s.tasks ==> s.tasks[t].creator.id != id)
  }

  /** A reference resolves when its model's collection holds its id (what
      `populate` needs to return a document rather than null). */
  predicate Resolves(s: Store, r: Ref) {
    match r.kind
    case AdminModel => r.id in s.admins
    case ManagerModel => r.id in s.managers
    case RegularUserModel => r.id in s.users
  }

  /** The `required: true, trim: true` rule for a string path: the trimmed
      value, or nothing when the field is missing or blank. */
  function Required(field: Option<string>): (r: Option<string>)
    ensures r.Some? <==> field.Some? && !Text.Blank(field.value)
    ensures r.Some? ==> r.value != [] && r.value == Text.Trim(field.value)
  {
    if field.None? then None
    else
      var t := Text.Trim(field.value);
      if t == [] then None else Some(t)
  }

  /** The email setters `lowercase: true, trim: true`. */
  function NormalizeEmail(email: string): string {
    Text.Lower(Text.Trim(email))
  }

  /** A normalised email is left alone by normalising it again, so a stored
      email and a query for it agree. */
  lemma NormalizeEmailIdempotent(email: string)
    ensures NormalizeEmail(NormalizeEmail(email)) == NormalizeEmail(email)
  {
    var t := Text.Trim(email);
    Text.LowerKeepsTrimmed(t);
    var l := Text.Lower(t);
    Text.TrimStartOfTrimmed(l);
    Text.TrimEndOfTrimmed(l);
    Text.LowerIdempotent(t);
  }

  /** Builds a task the way the Task schema validates it: title, description
      and due date are required, the status defaults to pending and must be
      one of the enum values, and the assignee starts unset. */
  function NewTask(
    title: Option<string>,
    description: Option<string>,
    status: Option<string>,
    dueDate: Option<int>,
    creator: Ref): (r: Result<Task>)
    ensures r.Ok? <==>
      && Required(title).Some? && Required(description).Some? && dueDate.Some?
      && (status.None? || ParseStatus(status.value).Some?)
    ensures r.Ok? ==>
      && r.value.creator == creator
      && r.value.assignee.None?
      && r.value.dueDate == dueDate.value
      && r.value.title == Text.Trim(title.value)
      && r.value.description == Text.Trim(description.value)
      && (status.None? ==> r.value.status == Pending)
      && (status.Some? ==> StatusName(r.value.status) == status.value)
    ensures r.Err? ==> r.error.Code() == 500
  {
    var st := if status.None? then Some(Pending) else ParseStatus(status.value);
    var t, d := Required(title), Required(description);
    if t.None? || d.None? || dueDate.None? || st.None? then
      Err(Invalid("Task"))
    else
      Ok(Task(t.value, d.value, st.value, dueDate.value, creator, None))
  }

  /** Builds a regular user the way the RegularUser schema validates it:
      name and email are required (email lower-cased and trimmed), the role
      defaults to `'user'`, and the creator must be an Admin or a Manager. */
  function NewRegularUser(
    name: Option<string>,
    email: Option<string>,
    password: string,
    managerId: Option<Id>,
    createdBy: Ref): (r: Result<RegularUser>)
    ensures r.Ok? <==>
      Required(name).Some? && Required(email).Some? && createdBy.kind != RegularUserModel
    ensures r.Ok? ==>
      && r.value.name == Required(name).value
      && r.value.role == "user"
      && r.value.email == NormalizeEmail(email.value)
      && r.value.password == password
      && r.value.email != []
      && r.value.managerId == managerId
      && r.value.createdBy == createdBy
    ensures r.Err? ==> r.error.Code() == 500
  {
    var n, e := Required(name), Required(email);
    if n.None? || e.None? || createdBy.kind == RegularUserModel then
      Err(Invalid("RegularUser"))
    else
      Ok(RegularUser(n.value, Text.Lower(e.value), password, "user", managerId, createdBy))
  }

  /** Builds an Admin document. The Admin schema is not part of this model:
      name and email are taken to be required, and the email normalised, as
      in the RegularUser schema. */
  function NewAdmin(name: Option<string>, email: Option<string>, password: string): (r: Result<Admin>)
    ensures r.Ok? <==> Required(name).Some? && Required(email).Some?
    ensures r.Ok? ==>
      && r.value.name == Required(name).value
      && r.value.role == "admin"
      && r.value.email == NormalizeEmail(email.value)
      && r.value.password == password
    ensures r.Err? ==> r.error.Code() == 500
  {
    var n, e := Required(name), Required(email);
    if n.None? || e.None? then Err(Invalid("Admin"))
    else Ok(Admin(n.value, Text.Lower(e.value), password, "admin"))
  }

  /** Builds a Manager document with an empty list. The Manager schema is not
      part of this model: name and email are taken to be required, and the
      email normalised, as in the RegularUser schema. */
  function NewManager(name: Option<string>, email: Option<string>, password: string, createdBy: Id): (r: Result<Manager>)
    ensures r.Ok? <==> Required(name).Some? && Required(email).Some?
    ensures r.Ok? ==>
      && r.value.name == Required(name).value
      && r.value.assignedUsers == []
      && r.value.createdBy == createdBy
      && r.value.email == NormalizeEmail(email.value)
      && r.value.password == password
    ensures r.Err? ==> r.error.Code() == 500
  {
    var n, e := Required(name), Required(email);
    if n.None? || e.None? then Err(Invalid("Manager"))
    else Ok(Manager(n.value, Text.Lower(e.value), password, [], createdBy))
  }

  /** `document.save()` on a regular user: the `role` path is immutable, so
      whatever the edited copy says, the stored role is kept. */
  function SaveRegularUser(stored: RegularUser, edited: RegularUser): (r: RegularUser)
    ensures r.role == stored.role
    ensures r.(role := edited.role) == edited
  {
    edited.(role := stored.role)
  }
}

=== FILE: outcomes.dfy ===
/** Optional values, the error taxonomy of the API and the result type every
    controller returns instead of an HTTP response. */
module Outcomes {

  /** A value that may be absent: an undefined request field, a null reference. */
  datatype Option<+T> = None | Some(value: T) {
    function GetOr(default: T): T {
      match this
      case Some(v) => v
      case None => default
    }
  }

  /** Every failure a controller or middleware sends back, with its message. */
  datatype Error =
    | BadRequest(message: string)    // 400
    | Unauthorized(message: string)  // 401
    | Forbidden(message: string)     // 403
    | NotFound(message: string)      // 404
    | ServerError(message: string)   // 500: a thrown validation or library error
  {
    /** The HTTP status code the error is sent with. */
    function Code(): nat {
      match this
      case BadRequest(_) => 400
      case Unauthorized(_) => 401
      case Forbidden(_) => 403
      case NotFound(_) => 404
      case ServerError(_) => 500
    }
  }

  /** The error a schema validation failure throws for a model. */
  function Invalid(model: string): (e: Error)
    ensures e.Code() == 500
  {
    ServerError(model + " validation failed")
  }

  /** What `bcrypt.hash` throws when the password is undefined. */
  const HashFailed := ServerError("Illegal arguments: undefined, string")

  datatype Result<+T> = Ok(value: T) | Err(error: Error)

  /** The outcome of a middleware that either lets the request through or ends it. */
  datatype Outcome = Pass | Fail(error: Error)

  /** JavaScript truthiness of an optional string field: present and non-empty. */
  predicate Given(field: Option<string>) {
    field.Some? && field.value != ""
  }
}

=== FILE: policy.dfy ===
/** Task visibility (backend/controllers/taskController.js): the role scope
    the list and stats queries filter by, the per-task check that get,
    update and delete repeat, and the caller-supplied list filters. */
module Policy {
  import opened Outcomes
  import opened Models
  import opened Auth
  import Text

  /** The role part of the list query: a user sees the tasks it created, a
      manager those it created or that were created by an id in its
      `assignedUsers`, an admin every task. Only the creator's id is
      compared, never its model. */
  predicate InScope(c: Caller, t: Task) {
    match c.role
    case UserRole => t.creator.id == c.id
    case ManagerRole => t.creator.id == c.id || t.creator.id in c.AssignedUsers()
    case AdminRole => true
  }

  /** The three single-task endpoints; they differ only in the wording of the denial. */
  datatype Action = View | Update | Delete

  /** The 403 each handler sends when the check fails. */
  function Denial(a: Action): Error {
    match a
    case View => Forbidden("Not authorized to view this task")
    case Update => Forbidden("Not authorized to update this task")
    case Delete => Forbidden("Not authorized to delete this task")
  }

  /** The permission check as each single-task handler writes it: first the
      user test, then the manager test; an admin passes both. It admits
      exactly the tasks the unfiltered list would show. */
  function CheckTask(c: Caller, t: Task, action: Action): (r: Outcome)
    ensures r.Pass? <==> InScope(c, t)
    ensures c.role == AdminRole ==> r.Pass?
    ensures r.Fail? ==> r.error == Denial(action)
  {
    if c.role == UserRole && t.creator.id != c.id then
      Fail(Denial(action))
    else if c.role == ManagerRole && t.creator.id != c.id && t.creator.id !in c.AssignedUsers() then
      Fail(Denial(action))
    else
      Pass
  }

  /** The two instants the due-date filter computes from the requested date
      with `setHours` in the server's local time zone: the day's
      00:00:00.000 (`start`) and its 23:59:59.999 (`end`). The time zone is
      outside the model, so both are given. */
  datatype DayWindow = DayWindow(start: int, end: int)

  /** The query string of `GET /api/tasks`; an absent or empty parameter is
      `None`. */
  datatype Filter = Filter(status: Option<string>, dueDay: Option<DayWindow>, search: Option<string>)

  /** No query parameters at all. */
  const NoFilter := Filter(None, None, None)

  /** Milliseconds from 00:00:00.000 to 23:59:59.999 of a day without a
      daylight-saving change. */
  const DayEndOffset := 23 * 3_600_000 + 59 * 60_000 + 59 * 1_000 + 999

  /** The window of a day of 24 hours starting at `start`. */
  function PlainDay(start: int): (w: DayWindow)
    ensures w.end - w.start == 86_400_000 - 1
  {
    DayWindow(start, start + DayEndOffset)
  }

  predicate StatusMatches(f: Filter, t: Task) {
    Given(f.status) ==> StatusName(t.status) == f.status.value
  }

  /** `$gte` the start and `$lt` the end: the end bound is exclusive. */
  predicate DueDayMatches(f: Filter, t: Task) {
    f.dueDay.Some? ==> f.dueDay.value.start <= t.dueDate < f.dueDay.value.end
  }

  /** Because the end bound is `$lt` 23:59:59.999, on a 24-hour day the
      filter matches the tasks due from the day's first millisecond up to,
      but not including, its last one. */
  lemma PlainDayMatches(c: Caller, t: Task, start: int)
    ensures Selected(c, Filter(None, Some(PlainDay(start)), None), t) <==>
      InScope(c, t) && start <= t.dueDate < start + 86_400_000 - 1
  {
  }

  predicate SearchMatches(f: Filter, t: Task) {
    Given(f.search) ==>
      Text.ContainsIgnoringCase(t.title, f.search.value) || Text.ContainsIgnoringCase(t.description, f.search.value)
  }

  /** The whole list query: role scope AND status AND due day AND search. */
  predicate Selected(c: Caller, f: Filter, t: Task) {
    InScope(c, t) && StatusMatches(f, t) && DueDayMatches(f, t) && SearchMatches(f, t)
  }

  /** Without query parameters the list query is the role scope alone. */
  lemma NoFilterIsScope(c: Caller, t: Task)
    ensures Selected(c, NoFilter, t) <==> InScope(c, t)
  {
  }
}

=== FILE: registry.dfy ===
/** The assignment link between a Manager's `assignedUsers` list and a
    RegularUser's `managerId` (backend/controllers/userController.js): the
    array updates `$push`, `$addToSet` and `$pull`, reassignment as the
    source performs it (pull, set, add, in that order) and principal
    deletion. */
module Registry {
  import opened Outcomes
  import opened Models

  /** `$pull`: removes every occurrence of `x`, keeping the order of the rest. */
  function Pull(xs: seq<Id>, x: Id): (r: seq<Id>)
    ensures x !in r
    ensures forall y :: y != x ==> (y in r <==> y in xs)
    ensures x !in xs ==> r == xs
    ensures Distinct(xs) ==> Distinct(r)
  {
    if xs == [] then []
    else if xs[0] == x then Pull(xs[1..], x)
    else
      var rest := Pull(xs[1..], x);
      assert xs[0] !in xs[1..] && Distinct(xs) ==> xs[0] !in rest;
      assert x !in xs ==> [xs[0]] + xs[1..] == xs;
      [xs[0]] + rest
  }

  /** `$addToSet`: appends `x` unless it is already there. */
  function AddToSet(xs: seq<Id>, x: Id): (r: seq<Id>)
    ensures forall y :: y in r <==> y in xs || y == x
    ensures x in xs ==> r == xs
    ensures Distinct(xs) ==> Distinct(r)
  {
    if x in xs then xs else xs + [x]
  }

  /** Pulling twice is pulling once, and pulling what was just appended
      removes it again. */
  lemma {:induction false} PullAppended(xs: seq<Id>, x: Id)
    ensures Pull(xs + [x], x) == Pull(xs, x)
  {
    if xs == [] {
      assert Pull([x], x) == Pull([], x);
    } else {
      assert (xs + [x])[1..] == xs[1..] + [x];
      PullAppended(xs[1..], x);
    }
  }

  /** `Manager.findByIdAndUpdate(m, { $pull: { assignedUsers: u } })`; an
      id that is not a manager's updates nothing. */
  function PullAssigned(s: Store, m: Id, u: Id): (r: Store)
    ensures r.(managers := s.managers) == s
    ensures r.managers.Keys == s.managers.Keys
    ensures forall k :: k in s.managers && k != m ==> r.managers[k] == s.managers[k]
    ensures m in s.managers ==> r.managers[m] == s.managers[m].(assignedUsers := Pull(s.managers[m].assignedUsers, u))
  {
    if m in s.managers then
      s.(managers := s.managers[m := s.managers[m].(assignedUsers := Pull(s.managers[m].assignedUsers, u))])
    else s
  }

  /** `Manager.findByIdAndUpdate(m, { $addToSet: { assignedUsers: u } })`. */
  function AddAssigned(s: Store, m: Id, u: Id): (r: Store)
    ensures r.(managers := s.managers) == s
    ensures r.managers.Keys == s.managers.Keys
    ensures forall k :: k in s.managers && k != m ==> r.managers[k] == s.managers[k]
    ensures m in s.managers ==> r.managers[m] == s.managers[m].(assignedUsers := AddToSet(s.managers[m].assignedUsers, u))
  {
    if m in s.managers then
      s.(managers := s.managers[m := s.managers[m].(assignedUsers := AddToSet(s.managers[m].assignedUsers, u))])
    else s
  }

  /** `Manager.findByIdAndUpdate(m, { $push: { assignedUsers: u } })`. */
  function PushAssigned(s: Store, m: Id, u: Id): (r: Store)
    ensures r.(managers := s.managers) == s
    ensures r.managers.Keys == s.managers.Keys
    ensures forall k :: k in s.managers && k != m ==> r.managers[k] == s.managers[k]
    ensures m in s.managers ==> r.managers[m] == s.managers[m].(assignedUsers := s.managers[m].assignedUsers + [u])
  {
    if m in s.managers then
      s.(managers := s.managers[m := s.managers[m].(assignedUsers := s.managers[m].assignedUsers + [u])])
    else s
  }

  /** The two sides of the link agree as far as the source keeps them:
      every id in a manager's list is a user pointing back at that manager,
      every user pointing at an existing manager is in its list, and no
      list repeats an id. A user's `managerId` may name no manager at all. */
  predicate Linked(s: Store) {
    && (forall m, u :: m in s.managers && u in s.managers[m].assignedUsers ==>
          u in s.users && s.users[u].managerId == Some(m))
    && (forall u :: u in s.users && s.users[u].managerId.Some? && s.users[u].managerId.value in s.managers ==>
          u in s.managers[s.users[u].managerId.value].assignedUsers)
    && (forall m :: m in s.managers ==> Distinct(s.managers[m].assignedUsers))
  }

  /** `RegularUser.create` followed, when the new user names a manager, by
      the `$push` of its id onto that manager's list (a no-op when no such
      manager exists). */
  function Enrol(s: Store, id: Id, user: RegularUser): (r: Store)
    ensures r.admins == s.admins && r.tasks == s.tasks
    ensures r.users == s.users[id := user]
    ensures r.managers.Keys == s.managers.Keys
    ensures forall m :: m in s.managers && Some(m) != user.managerId ==> r.managers[m] == s.managers[m]
    ensures forall m :: m in s.managers && Some(m) == user.managerId ==>
      r.managers[m] == s.managers[m].(assignedUsers := s.managers[m].assignedUsers + [id])
  {
    var s1 := s.(users := s.users[id := user]);
    if user.managerId.Some? then PushAssigned(s1, user.managerId.value, id) else s1
  }

  lemma EnrolListsPointBack(s: Store, id: Id, user: RegularUser)
    requires Linked(s) && IsFresh(s, id)
    ensures var r := Enrol(s, id, user);
      forall m, u :: m in r.managers && u in r.managers[m].assignedUsers ==> u in r.users && r.users[u].managerId == Some(m)
  {
    var r := Enrol(s, id, user);
    forall m, u | m in r.managers && u in r.managers[m].assignedUsers
      ensures u in r.users && r.users[u].managerId == Some(m)
    {
      if u != id {
        if Some(m) == user.managerId {
          assert r.managers[m].assignedUsers == s.managers[m].assignedUsers + [id];
        }
        assert u in s.managers[m].assignedUsers;
      }
    }
  }

  lemma EnrolUsersListed(s: Store, id: Id, user: RegularUser)
    requires Linked(s) && IsFresh(s, id)
    ensures var r := Enrol(s, id, user);
      forall u :: u in r.users && r.users[u].managerId.Some? && r.users[u].managerId.value in r.managers ==>
        u in r.managers[r.users[u].managerId.value].assignedUsers
  {
    var r := Enrol(s, id, user);
    forall u | u in r.users && r.users[u].managerId.Some? && r.users[u].managerId.value in r.managers
      ensures u in r.managers[r.users[u].managerId.value].assignedUsers
    {
      if u != id {
        var m := s.users[u].managerId.value;
        assert u in s.managers[m].assignedUsers;
        if Some(m) == user.managerId {
          assert r.managers[m].assignedUsers == s.managers[m].assignedUsers + [id];
        }
      }
    }
  }

  /** Enrolling a user under a fresh id keeps the link, whether or not the
      manager it names exists. */
  lemma EnrolPreservesLinked(s: Store, id: Id, user: RegularUser)
    requires Linked(s) && IsFresh(s, id)
    ensures Linked(Enrol(s, id, user))
  {
    var r := Enrol(s, id, user);
    EnrolListsPointBack(s, id, user);
    EnrolUsersListed(s, id, user);
    forall m | m in r.managers
      ensures Distinct(r.managers[m].assignedUsers)
    {
      if Some(m) == user.managerId {
        assert id !in s.managers[m].assignedUsers;
      }
    }
  }

  /** A new manager under a fresh id with an empty list keeps the link:
      it lists no one and no user names it. */
  lemma AddEmptyManagerPreservesLinked(s: Store, id: Id, m: Manager)
    requires Linked(s) && IsFresh(s, id) && m.assignedUsers == []
    ensures Linked(s.(managers := s.managers[id := m]))
  {
    var r := s.(managers := s.managers[id := m]);
    forall k, u | k in r.managers && u in r.managers[k].assignedUsers
      ensures u in r.users && r.users[u].managerId == Some(k)
    {
      assert k != id && u in s.managers[k].assignedUsers;
    }
    forall u | u in r.users && r.users[u].managerId.Some? && r.users[u].managerId.value in r.managers
      ensures u in r.managers[r.users[u].managerId.value].assignedUsers
    {
      assert s.users[u].managerId != Some(id);
    }
  }

  /** Under the link, no user is in the lists of two managers. */
  lemma LinkedListsAreDisjoint(s: Store, m1: Id, m2: Id, u: Id)
    requires Linked(s)
    requires m1 in s.managers && m2 in s.managers && m1 != m2
    ensures !(u in s.managers[m1].assignedUsers && u in s.managers[m2].assignedUsers)
  {
    if u in s.managers[m1].assignedUsers {
      assert s.users[u].managerId == Some(m1);
    }
  }

  /** `assignManagerToUser`: 404 if the user, then if the manager, does not
      exist; otherwise the user is pulled from its previous manager's list,
      its `managerId` is set and saved, and it is added to the new manager's
      list. Nothing else changes. */
  function Assign(s: Store, userId: Id, managerId: Id): (r: Result<Store>)
    ensures userId !in s.users ==> r == Err(NotFound("User not found"))
    ensures userId in s.users && managerId !in s.managers ==> r == Err(NotFound("Manager not found"))
    ensures r.Ok? <==> userId in s.users && managerId in s.managers
    ensures r.Ok? ==>
      && r.value.admins == s.admins && r.value.tasks == s.tasks
      && r.value.users == s.users[userId := s.users[userId].(managerId := Some(managerId))]
      && r.value.managers.Keys == s.managers.Keys
      && userId in r.value.managers[managerId].assignedUsers
      && r.value.managers[managerId] == s.managers[managerId].(assignedUsers := AddToSet(
           if s.users[userId].managerId == Some(managerId) then Pull(s.managers[managerId].assignedUsers, userId)
           else s.managers[managerId].assignedUsers,
           userId))
      && (forall u :: u != userId ==>
            (u in r.value.managers[managerId].assignedUsers <==> u in s.managers[managerId].assignedUsers))
      && (Distinct(s.managers[managerId].assignedUsers) ==> Distinct(r.value.managers[managerId].assignedUsers))
      && (forall m :: m in s.managers && m != managerId && Some(m) != s.users[userId].managerId ==>
            r.value.managers[m] == s.managers[m])
      && (forall m :: m in s.managers && m != managerId && Some(m) == s.users[userId].managerId ==>
            r.value.managers[m] == s.managers[m].(assignedUsers := Pull(s.managers[m].assignedUsers, userId)))
  {
    if userId !in s.users then Err(NotFound("User not found"))
    else if managerId !in s.managers then Err(NotFound("Manager not found"))
    else
      var user := s.users[userId];
      var s1 := if user.managerId.Some? then PullAssigned(s, user.managerId.value, userId) else s;
      var s2 := s1.(users := s1.users[userId := SaveRegularUser(user, user.(managerId := Some(managerId)))]);
      Ok(AddAssigned(s2, managerId, userId))
  }

  lemma AssignListsPointBack(s: Store, userId: Id, managerId: Id)
    requires Linked(s) && Assign(s, userId, managerId).Ok?
    ensures var r := Assign(s, userId, managerId).value;
      forall m, u :: m in r.managers && u in r.managers[m].assignedUsers ==> u in r.users && r.users[u].managerId == Some(m)
  {
    var r := Assign(s, userId, managerId).value;
    forall m, u | m in r.managers && u in r.managers[m].assignedUsers
      ensures u in r.users && r.users[u].managerId == Some(m)
    {
      if u != userId {
        assert u in s.managers[m].assignedUsers;
      }
    }
  }

  lemma AssignUsersListed(s: Store, userId: Id, managerId: Id)
    requires Linked(s) && Assign(s, userId, managerId).Ok?
    ensures var r := Assign(s, userId, managerId).value;
      forall u :: u in r.users && r.users[u].managerId.Some? && r.users[u].managerId.value in r.managers ==>
        u in r.managers[r.users[u].managerId.value].assignedUsers
  {
    var r := Assign(s, userId, managerId).value;
    forall u | u in r.users && r.users[u].managerId.Some? && r.users[u].managerId.value in r.managers
      ensures u in r.managers[r.users[u].managerId.value].assignedUsers
    {
      if u != userId {
        var m := s.users[u].managerId.value;
        assert u in s.managers[m].assignedUsers;
      }
    }
  }

  lemma AssignKeepsListsDistinct(s: Store, userId: Id, managerId: Id)
    requires Linked(s) && Assign(s, userId, managerId).Ok?
    ensures var r := Assign(s, userId, managerId).value;
      forall m :: m in r.managers ==> Distinct(r.managers[m].assignedUsers)
  {
  }

  /** Reassignment keeps the link: the user ends up in exactly one list,
      the one its `managerId` names. */
  lemma AssignPreservesLinked(s: Store, userId: Id, managerId: Id)
    requires Linked(s) && Assign(s, userId, managerId).Ok?
    ensures Linked(Assign(s, userId, managerId).value)
  {
    AssignListsPointBack(s, userId, managerId);
    AssignUsersListed(s, userId, managerId);
    AssignKeepsListsDistinct(s, userId, managerId);
  }

  /** Adding an id that was just added and pulled again restores the list. */
  lemma ReAddIsStable(xs: seq<Id>, x: Id)
    requires x !in xs
    ensures AddToSet(Pull(AddToSet(xs, x), x), x) == AddToSet(xs, x)
  {
    PullAppended(xs, x);
  }

  /** Repeating the same assignment changes nothing more. */
  lemma AssignIdempotent(s: Store, userId: Id, managerId: Id)
    requires Linked(s) && Assign(s, userId, managerId).Ok?
    ensures Assign(Assign(s, userId, managerId).value, userId, managerId) == Assign(s, userId, managerId)
  {
    var r := Assign(s, userId, managerId).value;
    var xs := s.managers[managerId].assignedUsers;
    var before := if s.users[userId].managerId == Some(managerId) then Pull(xs, userId) else xs;
    assert userId !in before;
    ReAddIsStable(before, userId);
    AssignInPlace(r, userId, managerId);
  }

  /** Assigning a user to the manager it already has, when that manager's
      list is unchanged by pulling and re-adding the user, changes nothing. */
  lemma AssignInPlace(r: Store, userId: Id, managerId: Id)
    requires userId in r.users && managerId in r.managers
    requires r.users[userId].managerId == Some(managerId)
    requires AddToSet(Pull(r.managers[managerId].assignedUsers, userId), userId) == r.managers[managerId].assignedUsers
    ensures Assign(r, userId, managerId) == Ok(r)
  {
    var r2 := Assign(r, userId, managerId).value;
    var m := r.managers[managerId];
    assert r.users[userId].(managerId := Some(managerId)) == r.users[userId];
    assert r2.users == r.users;
    assert r2.managers[managerId] == m.(assignedUsers := AddToSet(Pull(m.assignedUsers, userId), userId));
    assert m.(assignedUsers := m.assignedUsers) == m;
    forall k | k in r.managers
      ensures r2.managers[k] == r.managers[k]
    {
    }
    assert r2.managers == r.managers;
  }

  /** What `deleteUser` removed, and the word its success message uses. */
  datatype Removal = Removal(store: Store, userType: string)

  /** `deleteUser`: the Manager collection is tried first, then the
      RegularUser collection; admins are never found. Deleting a regular
      user pulls it from its manager's list; deleting a manager touches
      nothing else, so its users keep their `managerId`. */
  function DeleteUser(s: Store, id: Id): (r: Result<Removal>)
    ensures id !in s.managers && id !in s.users ==> r == Err(NotFound("User not found"))
    ensures r.Ok? ==> r.value.store.admins == s.admins && r.value.store.tasks == s.tasks
    ensures id in s.managers ==>
      && r.Ok? && r.value.userType == "manager"
      && r.value.store.users == s.users
      && r.value.store.managers.Keys == s.managers.Keys - {id}
      && (forall m :: m in r.value.store.managers ==> r.value.store.managers[m] == s.managers[m])
    ensures id !in s.managers && id in s.users ==>
      && r.Ok? && r.value.userType == "user"
      && r.value.store.users.Keys == s.users.Keys - {id}
      && (forall u :: u in r.value.store.users ==> r.value.store.users[u] == s.users[u])
      && r.value.store.managers.Keys == s.managers.Keys
      && (forall m :: m in s.managers && Some(m) != s.users[id].managerId ==> r.value.store.managers[m] == s.managers[m])
      && (forall m :: m in s.managers && Some(m) == s.users[id].managerId ==>
            r.value.store.managers[m] == s.managers[m].(assignedUsers := Pull(s.managers[m].assignedUsers, id)))
  {
    if id in s.managers then
      Ok(Removal(s.(managers := s.managers - {id}), "manager"))
    else if id in s.users then
      var user := s.users[id];
      var s1 := s.(users := s.users - {id});
      Ok(Removal(if user.managerId.Some? then PullAssigned(s1, user.managerId.value, id) else s1, "user"))
    else
      Err(NotFound("User not found"))
  }

  /** Deleting a manager keeps the link: its users now name no manager. */
  lemma DeleteManagerPreservesLinked(s: Store, id: Id)
    requires Linked(s) && id in s.managers
    ensures Linked(DeleteUser(s, id).value.store)
  {
    var r := DeleteUser(s, id).value.store;
    assert r.users == s.users;
    assert forall m :: m in r.managers ==> m in s.managers && r.managers[m] == s.managers[m];
  }

  /** The store `deleteUser` leaves after removing regular user `id`. */
  function WithoutRegularUser(s: Store, id: Id): (r: Store)
    requires id in s.users
    ensures r.users == s.users - {id}
    ensures r.managers.Keys == s.managers.Keys
    ensures forall m :: m in s.managers && Some(m) != s.users[id].managerId ==> r.managers[m] == s.managers[m]
    ensures forall m :: m in s.managers && Some(m) == s.users[id].managerId ==>
      r.managers[m] == s.managers[m].(assignedUsers := Pull(s.managers[m].assignedUsers, id))
  {
    var s1 := s.(users := s.users - {id});
    if s.users[id].managerId.Some? then PullAssigned(s1, s.users[id].managerId.value, id) else s1
  }

  lemma ListsPointBackWithoutUser(s: Store, id: Id)
    requires Linked(s) && id in s.users
    ensures var r := WithoutRegularUser(s, id);
      forall m, u :: m in r.managers && u in r.managers[m].assignedUsers ==> u in r.users && r.users[u].managerId == Some(m)
  {
    var r := WithoutRegularUser(s, id);
    forall m, u | m in r.managers && u in r.managers[m].assignedUsers
      ensures u in r.users && r.users[u].managerId == Some(m)
    {
      assert u in s.managers[m].assignedUsers;
    }
  }

  lemma UsersListedWithoutUser(s: Store, id: Id)
    requires Linked(s) && id in s.users
    ensures var r := WithoutRegularUser(s, id);
      forall u :: u in r.users && r.users[u].managerId.Some? && r.users[u].managerId.value in r.managers ==>
        u in r.managers[r.users[u].managerId.value].assignedUsers
  {
    var r := WithoutRegularUser(s, id);
    forall u | u in r.users && r.users[u].managerId.Some? && r.users[u].managerId.value in r.managers
      ensures u in r.managers[r.users[u].managerId.value].assignedUsers
    {
      var m := s.users[u].managerId.value;
      assert u in s.managers[m].assignedUsers;
    }
  }

  /** Deleting a regular user keeps the link: no list mentions it any more. */
  lemma DeleteRegularUserPreservesLinked(s: Store, id: Id)
    requires Linked(s) && id !in s.managers && id in s.users
    ensures Linked(DeleteUser(s, id).value.store)
  {
    var r := WithoutRegularUser(s, id);
    assert DeleteUser(s, id).value.store == r;
    ListsPointBackWithoutUser(s, id);
    UsersListedWithoutUser(s, id);
  }

  /** Deleting either kind of principal keeps the link. */
  lemma DeleteUserPreservesLinked(s: Store, id: Id)
    requires Linked(s) && DeleteUser(s, id).Ok?
    ensures Linked(DeleteUser(s, id).value.store)
  {
    if id in s.managers {
      DeleteManagerPreservesLinked(s, id);
    } else {
      DeleteRegularUserPreservesLinked(s, id);
    }
  }

  /** The gap deletion leaves: the users of a deleted manager still name it. */
  lemma DeletedManagerLeavesDanglingUsers(s: Store, m: Id, u: Id)
    requires m in s.managers && u in s.users && s.users[u].managerId == Some(m)
    ensures DeleteUser(s, m).Ok?
    ensures var r := DeleteUser(s, m).value.store;
      u in r.users && r.users[u].managerId == Some(m) && m !in r.managers
  {
  }
}

=== FILE: routes.dfy ===
/** The middleware chains of the protected routes (backend/routes/userRoutes.js,
    backend/routes/taskRoutes.js, backend/routes/authRoutes.js): every one
    runs `protect`, and the user-management routes then run `authorize` with
    the roles listed at the route. `POST /api/auth/login` and
    `POST /api/auth/create-admin` are public and have no chain. */
module Routes {
  import opened Outcomes
  import opened Models
  import opened Auth

  datatype Route =
    | CreateManagerRoute      // POST   /api/users/managers
    | ListManagersRoute       // GET    /api/users/managers
    | CreateRegularUserRoute  // POST   /api/users/regular-users
    | ListRegularUsersRoute   // GET    /api/users/regular-users
    | AssignManagerRoute      // PUT    /api/users/assign-manager
    | DeleteUserRoute         // DELETE /api/users/:id
    | TaskRoute               // every /api/tasks route
    | MeRoute                 // GET    /api/auth/me

  /** The arguments of the route's `authorize(...)`, as written at the
      route; `None` when the chain is `protect` alone. */
  function Gate(route: Route): Option<seq<Role>> {
    match route
    case CreateManagerRoute => Some([AdminRole])
    case ListManagersRoute => Some([AdminRole])
    case CreateRegularUserRoute => Some([AdminRole, ManagerRole])
    case ListRegularUsersRoute => None
    case AssignManagerRoute => Some([AdminRole])
    case DeleteUserRoute => Some([AdminRole])
    case TaskRoute => None
    case MeRoute => None
  }

  /** Who may use each route, as a capability table: managing managers,
      reassigning and deleting are admin work; creating regular users is
      admin or manager work; everything else is open to any signed-in role. */
  predicate Permitted(route: Route, role: Role) {
    match route
    case CreateManagerRoute => role == AdminRole
    case ListManagersRoute => role == AdminRole
    case CreateRegularUserRoute => role != UserRole
    case AssignManagerRoute => role == AdminRole
    case DeleteUserRoute => role == AdminRole
    case ListRegularUsersRoute => true
    case TaskRoute => true
    case MeRoute => true
  }

  /** The gate written at a route admits exactly the roles of the table. */
  lemma GateMatchesTable(route: Route, role: Role)
    ensures (Gate(route).None? || role in Gate(route).value) <==> Permitted(route, role)
  {
  }

  /** A route's middleware chain: `protect`, then the route's `authorize`
      when it has one. An authentication failure (401) is reported before
      any role failure (403); a request gets through iff it authenticates
      and its role is permitted on the route, and then the handler sees the
      caller `protect` resolved. */
  function Admit(s: Store, authorization: Option<string>, verify: string -> Option<Claims>, route: Route): (r: Result<Caller>)
    ensures Protect(s, authorization, verify).Err? ==> r == Protect(s, authorization, verify)
    ensures Protect(s, authorization, verify).Ok? ==>
      var c := Protect(s, authorization, verify).value;
      && (r.Ok? <==> Permitted(route, c.role))
      && (r.Ok? ==> r.value == c)
      && (r.Err? ==> r.error == Forbidden("User role '" + RoleName(c.role) + "' is not authorized to access this route"))
    ensures r.Ok? ==> IsCurrent(s, r.value)
  {
    match Protect(s, authorization, verify)
    case Err(e) => Err(e)
    case Ok(c) =>
      if Gate(route).None? then Ok(c)
      else
        match Authorize(Gate(route).value, c.role)
        case Fail(e) => Err(e)
        case Pass => Ok(c)
  }

  /** A regular user gets past none of the user-management mutations,
      whatever token it presents. */
  lemma UserCannotManage(s: Store, authorization: Option<string>, verify: string -> Option<Claims>, route: Route)
    requires route in {CreateManagerRoute, CreateRegularUserRoute, AssignManagerRoute, DeleteUserRoute}
    requires Protect(s, authorization, verify).Ok? && Protect(s, authorization, verify).value.role == UserRole
    ensures Admit(s, authorization, verify, route).Err?
    ensures Admit(s, authorization, verify, route).error.Code() == 403
  {
  }
}

=== FILE: tasks.dfy ===
/** The task handlers of backend/controllers/taskController.js over the
    store: create, the filtered and sorted list, get, update, delete and the
    per-status statistics. */
module Tasks {
  import opened Outcomes
  import opened Models
  import opened Auth
  import opened Policy
  import Text

  /** The body of `POST /api/tasks`. */
  datatype TaskInput = TaskInput(
    title: Option<string>,
    description: Option<string>,
    dueDate: Option<int>,
    status: Option<string>)

  /** `createTask`: the creator is always the caller (its id and model), and a
      missing or empty status becomes `'pending'`; the schema then validates.
      Nothing but the new task is added. */
  function CreateTask(s: Store, c: Caller, input: TaskInput, newId: Id): (r: Result<Store>)
    requires newId !in s.tasks
    ensures r.Ok? <==>
      && Required(input.title).Some? && Required(input.description).Some? && input.dueDate.Some?
      && (Given(input.status) ==> ParseStatus(input.status.value).Some?)
    ensures r.Err? ==> r.error.Code() == 500
    ensures r.Ok? ==>
      && newId in r.value.tasks
      && r.value.admins == s.admins && r.value.managers == s.managers && r.value.users == s.users
      && r.value.tasks == s.tasks[newId := r.value.tasks[newId]]
    ensures r.Ok? ==>
      var t := r.value.tasks[newId];
      && t.creator == Ref(c.model, c.id)
      && t.assignee.None?
      && t.title == Text.Trim(input.title.value)
      && t.description == Text.Trim(input.description.value)
      && t.dueDate == input.dueDate.value
      && (!Given(input.status) ==> t.status == Pending)
      && (Given(input.status) ==> StatusName(t.status) == input.status.value)
  {
    var status := if Given(input.status) then input.status.value else "pending";
    var made := NewTask(input.title, input.description, Some(status), input.dueDate, Ref(c.model, c.id));
    if made.Err? then Err(made.error)
    else
      assert !Given(input.status) ==> made.value.status == Pending by {
        if !Given(input.status) {
          assert StatusName(made.value.status) == "pending";
        }
      }
      Ok(s.(tasks := s.tasks[newId := made.value]))
  }

  /** The ids of the tasks in the caller's role scope. */
  function ScopedIds(s: Store, c: Caller): set<Id> {
    set id | id in s.tasks && InScope(c, s.tasks[id])
  }

  /** The ids of the tasks the whole list query selects. */
  function MatchingIds(s: Store, c: Caller, f: Filter): set<Id> {
    set id | id in s.tasks && Selected(c, f, s.tasks[id])
  }

  predicate AllIn(tasks: map<Id, Task>, ids: seq<Id>) {
    forall i :: 0 <= i < |ids| ==> ids[i] in tasks
  }

  predicate SortedByDue(tasks: map<Id, Task>, ids: seq<Id>)
    requires AllIn(tasks, ids)
  {
    forall i, j :: 0 <= i < j < |ids| ==> tasks[ids[i]].dueDate <= tasks[ids[j]].dueDate
  }

  /** Inserts `id` into a due-date-ordered sequence, ahead of any task due
      at the same time. */
  function InsertByDue(tasks: map<Id, Task>, ids: seq<Id>, id: Id): (r: seq<Id>)
    requires id in tasks && AllIn(tasks, ids) && SortedByDue(tasks, ids)
    ensures |r| == |ids| + 1
    ensures forall x :: x in r <==> x in ids || x == id
    ensures AllIn(tasks, r) && SortedByDue(tasks, r)
    ensures Distinct(ids) && id !in ids ==> Distinct(r)
  {
    if ids == [] then [id]
    else if tasks[id].dueDate <= tasks[ids[0]].dueDate then [id] + ids
    else
      var rest := InsertByDue(tasks, ids[1..], id);
      HeadBelowRest(tasks, ids, id, rest);
      [ids[0]] + rest
  }

  /** Every element of the insertion into the tail is due no earlier than
      the head, and differs from it when the ids were distinct. */
  lemma HeadBelowRest(tasks: map<Id, Task>, ids: seq<Id>, id: Id, rest: seq<Id>)
    requires id in tasks && ids != [] && AllIn(tasks, ids) && SortedByDue(tasks, ids)
    requires tasks[ids[0]].dueDate < tasks[id].dueDate
    requires AllIn(tasks, rest) && SortedByDue(tasks, rest)
    requires forall x :: x in rest <==> x in ids[1..] || x == id
    ensures AllIn(tasks, [ids[0]] + rest) && SortedByDue(tasks, [ids[0]] + rest)
    ensures Distinct(ids) && id !in ids && Distinct(rest) ==> Distinct([ids[0]] + rest)
  {
    var r := [ids[0]] + rest;
    forall j | 0 <= j < |rest|
      ensures tasks[ids[0]].dueDate <= tasks[rest[j]].dueDate
      ensures Distinct(ids) && id !in ids ==> rest[j] != ids[0]
    {
      assert rest[j] in rest;
      if rest[j] != id {
        var k :| 0 <= k < |ids[1..]| && ids[1..][k] == rest[j];
        assert ids[k + 1] == rest[j];
      }
    }
    assert forall i :: 1 <= i < |r| ==> r[i] == rest[i - 1];
  }

  /** `getAllTasks`: exactly the tasks the role scope and the filters
      select, each once, in ascending due-date order. */
  method ListTasks(s: Store, c: Caller, f: Filter) returns (ids: seq<Id>)
    ensures AllIn(s.tasks, ids)
    ensures forall i :: 0 <= i < |ids| ==> Selected(c, f, s.tasks[ids[i]])
    ensures forall id :: id in s.tasks && Selected(c, f, s.tasks[id]) ==> id in ids
    ensures Distinct(ids)
    ensures SortedByDue(s.tasks, ids)
    ensures |ids| == |MatchingIds(s, c, f)|
  {
    var matching := MatchingIds(s, c, f);
    var pending := matching;
    ids := [];
    while pending != {}
      invariant pending <= matching
      invariant AllIn(s.tasks, ids) && SortedByDue(s.tasks, ids) && Distinct(ids)
      invariant forall x :: x in ids <==> x in matching && x !in pending
      invariant forall i :: 0 <= i < |ids| ==> ids[i] in matching
      invariant |ids| + |pending| == |matching|
      decreases |pending|
    {
      var id :| id in pending;
      ids := InsertByDue(s.tasks, ids, id);
      pending := pending - {id};
    }
  }

  /** `getTask`. A missing id is a 404 for every role, before any check.
      The handler reads the populated creator, so for a user or a manager a
      task whose creator document is gone fails with a 500. Otherwise the
      task is returned exactly when it is in the caller's scope. */
  function GetTask(s: Store, c: Caller, id: Id): (r: Result<Task>)
    ensures id !in s.tasks ==> r == Err(NotFound("Task not found"))
    ensures r.Ok? ==> id in s.tasks && r.value == s.tasks[id] && InScope(c, r.value)
    ensures id in s.tasks && (c.role == AdminRole || Resolves(s, s.tasks[id].creator)) ==>
      (r.Ok? <==> InScope(c, s.tasks[id]))
    ensures id in s.tasks && Resolves(s, s.tasks[id].creator) && !InScope(c, s.tasks[id]) ==>
      r == Err(Denial(View))
    ensures id in s.tasks && c.role != AdminRole && !Resolves(s, s.tasks[id].creator) ==>
      r.Err? && r.error.Code() == 500
  {
    if id !in s.tasks then Err(NotFound("Task not found"))
    else
      var t := s.tasks[id];
      if c.role != AdminRole && !Resolves(s, t.creator) then
        Err(ServerError("Cannot read properties of null (reading '_id')"))
      else
        match CheckTask(c, t, View)
        case Fail(e) => Err(e)
        case Pass => Ok(t)
  }

  /** The body of `PUT /api/tasks/:id`; absent fields are left as they are. */
  datatype TaskPatch = TaskPatch(
    title: Option<string>,
    description: Option<string>,
    status: Option<string>,
    dueDate: Option<int>)

  /** The `findByIdAndUpdate` with validators: only title, description,
      status and due date can change, each under its schema rule; the
      creator and the assignee are never touched. */
  function ApplyPatch(t: Task, p: TaskPatch): (r: Result<Task>)
    ensures r.Ok? <==>
      && (p.title.Some? ==> Required(p.title).Some?)
      && (p.description.Some? ==> Required(p.description).Some?)
      && (p.status.Some? ==> ParseStatus(p.status.value).Some?)
    ensures r.Err? ==> r.error.Code() == 500
    ensures r.Ok? ==>
      && r.value.creator == t.creator
      && r.value.assignee == t.assignee
      && r.value.title == (if p.title.Some? then Text.Trim(p.title.value) else t.title)
      && r.value.description == (if p.description.Some? then Text.Trim(p.description.value) else t.description)
      && (p.status.None? ==> r.value.status == t.status)
      && (p.status.Some? ==> StatusName(r.value.status) == p.status.value)
      && r.value.dueDate == p.dueDate.GetOr(t.dueDate)
  {
    if (p.title.Some? && Required(p.title).None?)
      || (p.description.Some? && Required(p.description).None?)
      || (p.status.Some? && ParseStatus(p.status.value).None?)
    then
      Err(Invalid("Task"))
    else
      Ok(t.(
        title := if p.title.Some? then Required(p.title).value else t.title,
        description := if p.description.Some? then Required(p.description).value else t.description,
        status := if p.status.Some? then ParseStatus(p.status.value).value else t.status,
        dueDate := p.dueDate.GetOr(t.dueDate)))
  }

  /** `updateTask`: 404 before the check, then the same scope check as
      `getTask`; a permitted update replaces only that task. */
  function UpdateTask(s: Store, c: Caller, id: Id, p: TaskPatch): (r: Result<Store>)
    ensures id !in s.tasks ==> r == Err(NotFound("Task not found"))
    ensures id in s.tasks && !InScope(c, s.tasks[id]) ==> r == Err(Denial(Update))
    ensures id in s.tasks && InScope(c, s.tasks[id]) ==> (r.Ok? <==> ApplyPatch(s.tasks[id], p).Ok?)
    ensures r.Ok? ==>
      && id in s.tasks && InScope(c, s.tasks[id])
      && r.value.(tasks := s.tasks) == s
      && r.value.tasks.Keys == s.tasks.Keys
      && ApplyPatch(s.tasks[id], p).Ok? && r.value.tasks[id] == ApplyPatch(s.tasks[id], p).value
      && (forall other :: other in s.tasks && other != id ==> r.value.tasks[other] == s.tasks[other])
  {
    if id !in s.tasks then Err(NotFound("Task not found"))
    else
      match CheckTask(c, s.tasks[id], Update)
      case Fail(e) => Err(e)
      case Pass =>
        match ApplyPatch(s.tasks[id], p)
        case Err(e) => Err(e)
        case Ok(t) => Ok(s.(tasks := s.tasks[id := t]))
  }

  /** `deleteTask`: 404 before the check, then the same scope check; a
      permitted delete removes only that task. */
  function DeleteTask(s: Store, c: Caller, id: Id): (r: Result<Store>)
    ensures id !in s.tasks ==> r == Err(NotFound("Task not found"))
    ensures id in s.tasks ==> (r.Ok? <==> InScope(c, s.tasks[id]))
    ensures id in s.tasks && !InScope(c, s.tasks[id]) ==> r == Err(Denial(Delete))
    ensures r.Ok? ==>
      && r.value.(tasks := s.tasks) == s
      && id !in r.value.tasks
      && r.value.tasks.Keys == s.tasks.Keys - {id}
      && (forall other :: other in r.value.tasks ==> r.value.tasks[other] == s.tasks[other])
  {
    if id !in s.tasks then Err(NotFound("Task not found"))
    else
      match CheckTask(c, s.tasks[id], Delete)
      case Fail(e) => Err(e)
      case Pass => Ok(s.(tasks := s.tasks - {id}))
  }

  /** The tasks in the caller's scope that have status `st`. */
  function ScopedWithStatus(s: Store, c: Caller, st: Status): set<Id> {
    set id | id in s.tasks && InScope(c, s.tasks[id]) && s.tasks[id].status == st
  }

  /** The three status groups split the caller's scope. */
  lemma StatusGroupsPartitionScope(s: Store, c: Caller)
    ensures |ScopedWithStatus(s, c, Pending)| + |ScopedWithStatus(s, c, InProgress)| + |ScopedWithStatus(s, c, Completed)|
      == |ScopedIds(s, c)|
  {
    var p, i, d := ScopedWithStatus(s, c, Pending), ScopedWithStatus(s, c, InProgress), ScopedWithStatus(s, c, Completed);
    assert p !! i && (p + i) !! d;
    assert ScopedIds(s, c) == p + i + d;
  }

  /** `getTaskStats`: always the three status keys, each counting the scoped
      tasks with that status, together counting the whole scope. */
  function TaskStats(s: Store, c: Caller): (r: map<Status, nat>)
    ensures r.Keys == {Pending, InProgress, Completed}
    ensures forall st :: st in r ==> r[st] == |ScopedWithStatus(s, c, st)|
    ensures r[Pending] + r[InProgress] + r[Completed] == |ScopedIds(s, c)|
  {
    StatusGroupsPartitionScope(s, c);
    map[
      Pending := |ScopedWithStatus(s, c, Pending)|,
      InProgress := |ScopedWithStatus(s, c, InProgress)|,
      Completed := |ScopedWithStatus(s, c, Completed)|]
  }

  /** The statistics count exactly as many tasks as the unfiltered list returns. */
  lemma StatsTotalIsListCount(s: Store, c: Caller)
    ensures var r := TaskStats(s, c);
      r[Pending] + r[InProgress] + r[Completed] == |MatchingIds(s, c, NoFilter)|
  {
    forall id | id in s.tasks
      ensures Selected(c, NoFilter, s.tasks[id]) <==> InScope(c, s.tasks[id])
    {
      NoFilterIsScope(c, s.tasks[id]);
    }
    assert MatchingIds(s, c, NoFilter) == ScopedIds(s, c);
  }
}

=== FILE: text.dfy ===
/** The string operations the controllers and schemas lean on: the `trim` and
    `lowercase` schema setters, a case-insensitive substring search and
    `String.prototype.split` on a single character. Letters are ASCII only. */
module Text {

  /** The white-space characters `String.prototype.trim` removes (ASCII subset). */
  predicate IsSpace(c: char) {
    c == ' ' || c == '\t' || c == '\n' || c == '\r' || c as int == 11 || c as int == 12
  }

  function LowerChar(c: char): (r: char)
    ensures 'A' <= c <= 'Z' ==> r as int == c as int + 32
    ensures !('A' <= c <= 'Z') ==> r == c
  {
    if 'A' <= c <= 'Z' then (c as int + 32) as char else c
  }

  /** Lower-cases every ASCII letter and leaves every other character alone. */
  function Lower(s: string): (r: string)
    ensures |r| == |s|
    ensures forall i :: 0 <= i < |s| ==> r[i] == LowerChar(s[i])
  {
    if s == [] then [] else [LowerChar(s[0])] + Lower(s[1..])
  }

  /** Drops leading white space: the result is a suffix of `s` that does not
      start with a space, and everything cut off was a space. */
  function TrimStart(s: string): (r: string)
    ensures |r| <= |s| && r == s[|s| - |r|..]
    ensures forall i :: 0 <= i < |s| - |r| ==> IsSpace(s[i])
    ensures r == [] || !IsSpace(r[0])
  {
    if s != [] && IsSpace(s[0]) then
      var r := TrimStart(s[1..]);
      assert r == s[|s| - |r|..] by {
        assert s[1..][|s| - 1 - |r|..] == s[|s| - |r|..];
      }
      assert forall i :: 1 <= i < |s| - |r| ==> IsSpace(s[i]) by {
        forall i | 1 <= i < |s| - |r|
          ensures IsSpace(s[i])
        {
          assert s[i] == s[1..][i - 1];
        }
      }
      r
    else s
  }

  /** Drops trailing white space: the result is a prefix of `s` that does not
      end with a space, and everything cut off was a space. */
  function TrimEnd(s: string): (r: string)
    ensures |r| <= |s| && r == s[..|r|]
    ensures forall i :: |r| <= i < |s| ==> IsSpace(s[i])
    ensures r == [] || !IsSpace(r[|r| - 1])
  {
    if s != [] && IsSpace(s[|s| - 1]) then TrimEnd(s[..|s| - 1]) else s
  }

  predicate Trimmed(s: string) {
    s == [] || (!IsSpace(s[0]) && !IsSpace(s[|s| - 1]))
  }

  /** Every character is white space (the empty string included). */
  predicate Blank(s: string) {
    forall i :: 0 <= i < |s| ==> IsSpace(s[i])
  }

  /** `String.prototype.trim`: the slice of `s` between its leading and
      trailing white space, empty exactly when `s` is blank. */
  function Trim(s: string): (r: string)
    ensures Trimmed(r)
    ensures |r| <= |s|
    ensures r == [] <==> Blank(s)
  {
    var t := TrimStart(s);
    var r := TrimEnd(t);
    assert r == [] || !IsSpace(r[0]) by {
      if r != [] { assert r[0] == t[0]; }
    }
    assert r == [] ==> t == [];
    assert r != [] ==> !IsSpace(s[|s| - |t|]) by {
      if r != [] { assert t[0] == s[|s| - |t|]; }
    }
    r
  }

  /** A string cut down to a suffix `t` and then to a prefix `r` of that
      suffix, with only white space cut off, is the slice of `s` between a
      blank prefix and a blank suffix. */
  lemma CutBetweenBlanks(s: string, t: string, r: string)
    requires |t| <= |s| && t == s[|s| - |t|..]
    requires |r| <= |t| && r == t[..|r|]
    requires forall i :: 0 <= i < |s| - |t| ==> IsSpace(s[i])
    requires forall i :: |r| <= i < |t| ==> IsSpace(t[i])
    ensures var a, b := |s| - |t|, |s| - |t| + |r|;
      && 0 <= a <= b <= |s| && r == s[a..b] && Blank(s[..a]) && Blank(s[b..])
  {
    var a, b := |s| - |t|, |s| - |t| + |r|;
    assert r == s[a..b];
    assert Blank(s[..a]) by {
      forall i | 0 <= i < a
        ensures IsSpace(s[..a][i])
      {
        assert s[..a][i] == s[i];
      }
    }
    assert Blank(s[b..]) by {
      forall i | 0 <= i < |s[b..]|
        ensures IsSpace(s[b..][i])
      {
        assert s[b..][i] == t[|r| + i];
      }
    }
  }

  /** `Trim` cuts only white space: its result is the slice of `s` left
      between a blank prefix and a blank suffix. */
  lemma TrimIsInnerSlice(s: string)
    ensures exists a, b :: 0 <= a <= b <= |s| && Trim(s) == s[a..b] && Blank(s[..a]) && Blank(s[b..])
  {
    var t := TrimStart(s);
    CutBetweenBlanks(s, t, TrimEnd(t));
  }

  lemma TrimStartOfTrimmed(s: string)
    requires s == [] || !IsSpace(s[0])
    ensures TrimStart(s) == s
  {
  }

  lemma TrimEndOfTrimmed(s: string)
    requires s == [] || !IsSpace(s[|s| - 1])
    ensures TrimEnd(s) == s
  {
  }

  /** Trimming an already trimmed string changes nothing, so the `trim` setter
      is idempotent. */
  lemma TrimIdempotent(s: string)
    ensures Trim(Trim(s)) == Trim(s)
  {
    var t := Trim(s);
    TrimStartOfTrimmed(t);
    TrimEndOfTrimmed(t);
  }

  /** Lower-casing keeps white space where it was and makes nothing new into white space. */
  lemma LowerKeepsTrimmed(s: string)
    requires Trimmed(s)
    ensures Trimmed(Lower(s))
  {
    if s != [] {
      assert Lower(s)[0] == LowerChar(s[0]);
      assert Lower(s)[|s| - 1] == LowerChar(s[|s| - 1]);
    }
  }

  lemma LowerIdempotent(s: string)
    ensures Lower(Lower(s)) == Lower(s)
  {
    var l := Lower(s);
    assert forall i :: 0 <= i < |s| ==> Lower(l)[i] == LowerChar(LowerChar(s[i])) == l[i];
  }

  /** `p` occurs in `s` starting at some position. */
  function Occurs(p: string, s: string): (r: bool)
    ensures p == [] ==> r
    ensures |s| < |p| ==> !r
  {
    if p <= s then true
    else if s == [] then false
    else Occurs(p, s[1..])
  }

  predicate OccursAt(p: string, s: string, i: int) {
    0 <= i && i + |p| <= |s| && s[i..i + |p|] == p
  }

  /** The recursive search agrees with the positional definition of a substring. */
  lemma {:induction false} OccursIffSomePosition(p: string, s: string)
    ensures Occurs(p, s) <==> exists i :: OccursAt(p, s, i)
  {
    if p <= s {
      assert OccursAt(p, s, 0);
    } else if s == [] {
      assert forall i :: !OccursAt(p, s, i);
    } else {
      OccursIffSomePosition(p, s[1..]);
      forall i | OccursAt(p, s, i)
        ensures OccursAt(p, s[1..], i - 1)
      {
        assert s[1..][i - 1..i - 1 + |p|] == s[i..i + |p|];
      }
      forall i | OccursAt(p, s[1..], i)
        ensures OccursAt(p, s, i + 1)
      {
        assert s[1..][i..i + |p|] == s[i + 1..i + 1 + |p|];
      }
    }
  }

  /** A case-insensitive search for `needle` inside `text` (the `$regex` with
      option `i`, taking the pattern literally). */
  predicate ContainsIgnoringCase(text: string, needle: string) {
    Occurs(Lower(needle), Lower(text))
  }

  /** `text.split(sep)`: the fields between the occurrences of `sep`. */
  function Split(s: string, sep: char): (r: seq<string>)
    ensures |r| >= 1
    ensures forall i :: 0 <= i < |r| ==> sep !in r[i]
    ensures sep !in s ==> r == [s]
  {
    if s == [] then [""]
    else
      var rest := Split(s[1..], sep);
      assert sep !in s ==> [s[0]] + s[1..] == s;
      if s[0] == sep then [""] + rest
      else [[s[0]] + rest[0]] + rest[1..]
  }

  /** `fields.join(sep)`. */
  function Join(fields: seq<string>, sep: char): string
    requires |fields| >= 1
  {
    if |fields| == 1 then fields[0] else fields[0] + [sep] + Join(fields[1..], sep)
  }

  /** Splitting loses nothing: joining the fields back gives the original text. */
  lemma {:induction false} JoinSplit(s: string, sep: char)
    ensures Join(Split(s, sep), sep) == s
  {
    if s != [] {
      var rest := Split(s[1..], sep);
      JoinSplit(s[1..], sep);
      if s[0] == sep {
        assert Split(s, sep)[1..] == rest;
      } else {
        var r := Split(s, sep);
        if |rest| == 1 {
          assert r == [[s[0]] + rest[0]];
        } else {
          assert r[1..] == rest[1..];
          assert Join(rest, sep) == rest[0] + [sep] + Join(rest[1..], sep);
        }
      }
    }
  }

  /** A text with no separator in its head splits right after that head. */
  lemma {:induction false} SplitAfterHead(head: string, sep: char, tail: string)
    requires sep !in head
    ensures Split(head + [sep] + tail, sep) == [head] + Split(tail, sep)
  {
    if head == [] {
      assert ([sep] + tail)[1..] == tail;
    } else {
      assert (head + [sep] + tail)[1..] == head[1..] + [sep] + tail;
      SplitAfterHead(head[1..], sep, tail);
      assert [head[0]] + head[1..] == head;
    }
  }
}

=== FILE: users.dfy ===
/** The user-management handlers of backend/controllers/userController.js
    that create and list principals. Passwords arrive already hashed: the
    `digest` parameter stands for bcrypt's output, which depends on a random
    salt. */
module Users {
  import opened Outcomes
  import opened Models
  import opened Auth
  import opened Registry

  /** The body of `POST /api/users/managers` and `POST /api/users/regular-users`. */
  datatype Signup = Signup(
    name: Option<string>,
    email: Option<string>,
    password: Option<string>,
    managerId: Option<Id>)

  /** `findOne({ email })`: the query value goes through the email setters;
      an undefined email is dropped from the filter, which then matches any
      document. */
  predicate EmailMatches(query: Option<string>, stored: string) {
    query.None? || NormalizeEmail(query.value) == stored
  }

  /** The duplicate-email test both create handlers run over the Manager,
      Admin and RegularUser collections. */
  predicate EmailTaken(s: Store, query: Option<string>) {
    || (exists id :: id in s.managers && EmailMatches(query, s.managers[id].email))
    || (exists id :: id in s.admins && EmailMatches(query, s.admins[id].email))
    || (exists id :: id in s.users && EmailMatches(query, s.users[id].email))
  }

  const EmailExists := BadRequest("Email already exists")

  /** `createManager` (admin-only by its route). An email in use in any
      collection is refused and nothing is created; otherwise exactly one
      Manager is added, with an empty list, created by the caller. */
  function CreateManager(s: Store, c: Caller, body: Signup, digest: string, newId: Id): (r: Result<Store>)
    requires newId !in s.managers
    ensures EmailTaken(s, body.email) ==> r == Err(EmailExists)
    ensures r.Ok? ==>
      && !EmailTaken(s, body.email)
      && newId in r.value.managers
      && r.value.admins == s.admins && r.value.users == s.users && r.value.tasks == s.tasks
      && r.value.managers == s.managers[newId := r.value.managers[newId]]
    ensures r.Ok? ==>
      var m := r.value.managers[newId];
      && m.assignedUsers == []
      && m.createdBy == c.id
      && m.password == digest
      && body.email.Some? && m.email == NormalizeEmail(body.email.value)
    ensures !EmailTaken(s, body.email) && body.password.None? ==> r == Err(HashFailed)
    ensures !EmailTaken(s, body.email) && body.password.Some? ==>
      (r.Ok? <==> NewManager(body.name, body.email, digest, c.id).Ok?)
  {
    if EmailTaken(s, body.email) then Err(EmailExists)
    else if body.password.None? then Err(HashFailed)
    else
      match NewManager(body.name, body.email, digest, c.id)
      case Err(e) => Err(e)
      case Ok(m) => Ok(s.(managers := s.managers[newId := m]))
  }

  /** Whose list a new regular user joins: a manager caller always assigns
      itself, ignoring the body; any other caller passes the body's
      `managerId` through, unchecked. */
  function InitialManager(c: Caller, body: Signup): (m: Option<Id>)
    ensures c.role == ManagerRole ==> m == Some(c.id)
    ensures c.role != ManagerRole ==> m == body.managerId
  {
    if c.role == ManagerRole then Some(c.id) else body.managerId
  }

  /** `createRegularUser` (admin or manager by its route). An email in use in
      any collection is refused and nothing is created. Otherwise one user is
      added, created by the caller and with the manager `InitialManager`
      picks; if that manager exists the new id is pushed onto its list, and
      if it does not the user keeps a `managerId` that names no manager. */
  function CreateRegularUser(s: Store, c: Caller, body: Signup, digest: string, newId: Id): (r: Result<Store>)
    requires IsFresh(s, newId)
    ensures EmailTaken(s, body.email) ==> r == Err(EmailExists)
    ensures r.Ok? ==>
      && !EmailTaken(s, body.email)
      && c.model != RegularUserModel
      && r.value.admins == s.admins && r.value.tasks == s.tasks
      && newId in r.value.users
      && r.value.users == s.users[newId := r.value.users[newId]]
      && var user := r.value.users[newId];
      && user.managerId == InitialManager(c, body)
      && user.createdBy == Ref(c.model, c.id)
      && user.role == "user"
      && user.password == digest
      && body.email.Some? && user.email == NormalizeEmail(body.email.value)
    ensures r.Ok? ==>
      && r.value.managers.Keys == s.managers.Keys
      && (forall m :: m in s.managers && Some(m) != InitialManager(c, body) ==> r.value.managers[m] == s.managers[m])
      && (forall m :: m in s.managers && Some(m) == InitialManager(c, body) ==>
            r.value.managers[m] == s.managers[m].(assignedUsers := s.managers[m].assignedUsers + [newId]))
    ensures !EmailTaken(s, body.email) && body.password.None? ==> r == Err(HashFailed)
    ensures !EmailTaken(s, body.email) && body.password.Some? ==>
      (r.Ok? <==> Required(body.name).Some? && Required(body.email).Some? && c.model != RegularUserModel)
  {
    if EmailTaken(s, body.email) then Err(EmailExists)
    else if body.password.None? then Err(HashFailed)
    else
      var made := NewRegularUser(body.name, body.email, digest, InitialManager(c, body), Ref(c.model, c.id));
      if made.Err? then Err(made.error) else Ok(Enrol(s, newId, made.value))
  }

  /** Creating a manager keeps the link: its list is empty and no user names it. */
  lemma CreateManagerPreservesLinked(s: Store, c: Caller, body: Signup, digest: string, newId: Id)
    requires IsFresh(s, newId) && Linked(s)
    requires CreateManager(s, c, body, digest, newId).Ok?
    ensures Linked(CreateManager(s, c, body, digest, newId).value)
  {
    var r := CreateManager(s, c, body, digest, newId).value;
    AddEmptyManagerPreservesLinked(s, newId, r.managers[newId]);
  }

  /** Creating a regular user keeps the link, whichever manager it names. */
  lemma CreateRegularUserPreservesLinked(s: Store, c: Caller, body: Signup, digest: string, newId: Id)
    requires IsFresh(s, newId) && Linked(s)
    requires CreateRegularUser(s, c, body, digest, newId).Ok?
    ensures Linked(CreateRegularUser(s, c, body, digest, newId).value)
  {
    var user := NewRegularUser(body.name, body.email, digest, InitialManager(c, body), Ref(c.model, c.id)).value;
    assert CreateRegularUser(s, c, body, digest, newId) == Ok(Enrol(s, newId, user));
    EnrolPreservesLinked(s, newId, user);
  }

  /** A user as listed: the password is never selected. */
  function Listed(u: RegularUser): RegularUser {
    u.(password := "")
  }

  /** `getAllRegularUsers` (any authenticated role): a manager gets the
      users whose `managerId` is its own id, every other role gets all
      users; no listed document carries a password. */
  function ListRegularUsers(s: Store, c: Caller): (r: map<Id, RegularUser>)
    ensures c.role == ManagerRole ==> r.Keys == set u | u in s.users && s.users[u].managerId == Some(c.id)
    ensures c.role != ManagerRole ==> r.Keys == s.users.Keys
    ensures forall u :: u in r ==> r[u] == Listed(s.users[u]) && r[u].password == ""
  {
    if c.role == ManagerRole then
      map u | u in s.users && s.users[u].managerId == Some(c.id) :: Listed(s.users[u])
    else
      map u | u in s.users :: Listed(s.users[u])
  }

  /** A manager as listed: the password is never selected. */
  function ListedManager(m: Manager): Manager {
    m.(password := "")
  }

  /** `getAllManagers` (admin-only by its route): every manager, without password. */
  function ListManagers(s: Store): (r: map<Id, Manager>)
    ensures r.Keys == s.managers.Keys
    ensures forall m :: m in r ==> r[m].password == "" && r[m].assignedUsers == s.managers[m].assignedUsers
    ensures forall m :: m in r ==> r[m].(password := s.managers[m].password) == s.managers[m]
  {
    map m | m in s.managers :: ListedManager(s.managers[m])
  }

  /** Under the link, the users a manager lists are exactly the ids in its
      own `assignedUsers`: the two sides of the link give the same answer. */
  lemma ManagerListMatchesAssigned(s: Store, c: Caller)
    requires Linked(s) && IsCurrent(s, c) && c.role == ManagerRole
    ensures ListRegularUsers(s, c).Keys == set u | u in c.AssignedUsers()
  {
    var listed := ListRegularUsers(s, c).Keys;
    assert c.AssignedUsers() == s.managers[c.id].assignedUsers;
    forall u | u in c.AssignedUsers()
      ensures u in listed
    {
      assert u in s.users && s.users[u].managerId == Some(c.id);
    }
  }
}

=== FILE: visibility.dfy ===
/** How the assignment registry drives task visibility: a manager's scope is
    read from its current `assignedUsers` on every request (the `protect`
    middleware reloads the document), so a reassignment moves a user's tasks
    from the old manager's view to the new one's. */
module Visibility {
  import opened Outcomes
  import opened Models
  import opened Auth
  import opened Policy
  import opened Registry

  /** After user `u` is reassigned from any manager to `b`, a task `u`
      created is in `b`'s scope and in no other manager's scope unless that
      manager created it itself. */
  lemma ReassignmentMovesVisibility(s: Store, u: Id, b: Id, t: Task, cb: Caller, ca: Caller)
    requires Linked(s) && Assign(s, u, b).Ok?
    requires t.creator.id == u
    requires IsCurrent(Assign(s, u, b).value, cb) && cb.role == ManagerRole && cb.id == b
    requires IsCurrent(Assign(s, u, b).value, ca) && ca.role == ManagerRole && ca.id != b && ca.id != u
    ensures InScope(cb, t)
    ensures !InScope(ca, t)
  {
    var s' := Assign(s, u, b).value;
    assert cb.AssignedUsers() == s'.managers[b].assignedUsers;
    assert ca.AssignedUsers() == s'.managers[ca.id].assignedUsers;
    assert ca.id in s.managers;
  }
}
